=== FILE: README.md ===
# grizzly-http-client core, modelled in Dafny

This project models the sequential logic of a small asynchronous HTTP/1.1
client built on Grizzly. The Java objects become immutable values, and each
operation is a pure step function from one state to the next.

- **Response** (`response.dfy`, module `Responses`): the completion primitive
  of one request. It holds the status, the headers and a running content
  length. Body chunks are either buffered or forwarded to an attached sink.
  The future is resolved by the last chunk. Registered callbacks are fanned
  out on success (watches are pruned afterwards) and on failure (nothing is
  pruned). Each sink write and each callback invocation is recorded in the
  Response's `events` trace.
- **Request** (`request.dfy`, module `Requests`): the request descriptor. It
  covers the constructor defaults, how the content length is derived, header
  merging, the readable channel and the field setters. Each Request holds
  exactly one Response, created with it and never replaced.
- **RequestResponseFilter** (`request_response_filter.dfy`, module
  `Correlation`): the per-connection correlator.
  - The pending requests form a `java.util.Stack`, modelled as `seq<RequestId>`
    with the top at the end. The request cached in the context attribute is an
    `Option<RequestId>`.
  - A write builds the header packet once and pushes the request at that
    moment. It then sends at most one body chunk and clears the body. A
    complete request gets a trailer on every write.
  - A read matches the frame with the cached request, or else the top of the
    stack. It copies the status and headers, feeds 2xx content into the
    Response, fails the future for 400/403/404/500, and pops the stack on the
    last frame.
  - Outbound messages form the `wire` trace.
- **AsyncHttpClient** (`async_http_client.dfy`, module `HttpClient`):
  - the transport and its filter chain are built lazily;
  - the client connects once and reuses the connection;
  - inserting into the filter chain has its own index arithmetic;
  - `send`, `complete`, `start` and the streaming channel's `write`, plus
    `send` over several requests in argument order;
  - the static factories.
- **Upload** (`upload.dfy`, module `Uploads`): the method check in its three
  constructors, as written and as intended.

Shared types live in `http_types.dfy` (module `HttpTypes`). A null reference
is `None`. A thrown exception is the `Err` side of a `Result`, or of an
`Outcome` that also carries the state after the call, since Java keeps state
changes made before a throw.

Inputs the code does not control are parameters:
- a connection attempt's outcome is `attempt: Option<ConnectionId>`;
- an inbound frame is a `Frame` value;
- a sink, a readable channel and a callback are identities (`SinkId`,
  `ChannelId`, `Callback(id, isWatch)`).

The foreign future is assumed to follow these rules:
- The first resolution wins. A second `result` on a resolved future is
  ignored.
- The overridden success hook (`done`) runs only when a pending future is
  resolved with a result.
- `getResult` reports null for a failed future. So `addCallback` on a failed
  future calls the callback's `success` with null, because the code only tests
  `isDone()`.
- A sink's `write` accepts the whole chunk and returns its length.
- A sink's `write` rejects a null buffer with a NullPointerException. This
  is why `Responses.AddContent` reports a null chunk with a sink attached as
  that exception.

Behaviours of the code that a reader might not expect, all modelled as the
code has them:
- Responses are matched last-in-first-out, with the newest pending request
  answered first
  (`Correlation.SingleFrameResponsesMatchNewestFirst`,
  `Correlation.PipelinedGetsAnsweredInReverse`).
- Success pruning removes the watches and keeps the one-shot callbacks.
- The trailer is sent again on every write of a complete request.
- With a sink attached, the future is never resolved.
- A failed connection attempt leaves the connection null. The write then
  throws a NullPointerException, and the next call tries to connect again.
- The failure hook fans out to the callbacks on every `failure` call, even on
  a future that is already resolved, so a resolved Response can still have
  its callbacks' `failure` run.

## Model

| member | source | states |
|---|---|---|
| HttpTypes.Concat | src/main/java/com/jbrisbin/async/http/Response.java:118-122 | the assembled body is as long as all buffered chunks together |
| Responses.NewResponse | src/main/java/com/jbrisbin/async/http/Response.java:26-37 | a new Response has status 0, empty headers, no content type, length 0, an empty body, no sink, no callbacks, nothing recorded, and a pending future; it satisfies the content-length invariant |
| Responses.SetHeaders | src/main/java/com/jbrisbin/async/http/Response.java:77-79 | a null map is a NullPointerException; otherwise putAll: the argument's values win, other keys are kept, nothing else changes |
| Responses.SetHeadersOverwrite | src/main/java/com/jbrisbin/async/http/Response.java:81-87 | overwrite makes the given map the header map and changes nothing else; without overwrite it is the putAll merge |
| Responses.GetContent | src/main/java/com/jbrisbin/async/http/Response.java:101-106 | the content is present exactly when the future is done with a non-null payload, and is that payload |
| Responses.DropWatches | src/main/java/com/jbrisbin/async/http/Response.java:47-56 | exactly the callbacks whose isWatch is true are removed; each one-shot callback keeps its multiplicity |
| Responses.DropWatchesKeepsOrder | src/main/java/com/jbrisbin/async/http/Response.java:47-56 | pruning distributes over concatenation and keeps a single callback exactly when it is not a watch, so the survivors keep their registration order |
| Responses.Resolve | src/main/java/com/jbrisbin/async/http/Response.java:45-57 | success on a pending future: resolves it, calls every callback's success in registration order with the headers and result, then prunes the watches; a resolved future is left as it is |
| Responses.ResolveCallsEachOnceAndDropsWatches | src/main/java/com/jbrisbin/async/http/Response.java:45-57 | the i-th queued callback gets the i-th success call; it stays registered iff it is not a watch; a second resolution changes nothing |
| Responses.Fail | src/main/java/com/jbrisbin/async/http/Response.java:38-43 | a pending future fails; every registered callback's failure runs, in order, with the current headers; no callback is removed |
| Responses.AddCallback | src/main/java/com/jbrisbin/async/http/Response.java:169-176 | on a resolved future success runs once at once and nothing is stored; on a pending one the callback is appended and nothing runs |
| Responses.Assemble | src/main/java/com/jbrisbin/async/http/Response.java:117-123 | the result buffer has the running content length and starts with the buffered chunks in order |
| Responses.Finish | src/main/java/com/jbrisbin/async/http/Response.java:117-126 | a last chunk resolves with the assembled body when the length is positive, with null when it is 0; otherwise nothing happens |
| Responses.AddChunk | src/main/java/com/jbrisbin/async/http/Response.java:108-129 | with a sink: the chunk goes to the sink, the length grows, nothing else changes, even on the last chunk; without one the chunk is appended to the body, and a last chunk on a pending future resolves it (with the concatenated body when the length matches, or with null at length 0), runs every callback's success in order with the headers and result, and drops the watches |
| Responses.AddContent | src/main/java/com/jbrisbin/async/http/Response.java:108-129 | a null chunk with a sink attached is a NullPointerException; a null chunk without one only finishes |
| Responses.SetSink | src/main/java/com/jbrisbin/async/http/Response.java:156-167 | a non-null sink receives one write per buffered chunk, in order; null only clears the field; apart from the sink and those writes, the Response is unchanged |
| Responses.DeliverBuffers | src/main/java/com/jbrisbin/async/http/Response.java:113-116 | without a sink, chunks are kept in arrival order and the content length is the sum of their lengths; nothing resolves |
| Responses.BufferedBodyIsConcatenation | src/main/java/com/jbrisbin/async/http/Response.java:113-126 | a fresh Response fed chunks and then a last chunk keeps all of them in order, has their total length as content length, and resolves with their in-order concatenation; a total length of 0 resolves with null |
| Responses.WholeBodyInOneChunk | src/main/java/com/jbrisbin/async/http/Response.java:113-123 | a last chunk holding the whole non-empty body resolves a pending future with that chunk |
| Responses.LastChunkResolves | src/main/java/com/jbrisbin/async/http/Response.java:113-126 | a last chunk appended to a buffered body whose length matches resolves with the concatenation of all chunks, or with null when the total is 0, runs every registered callback's success with that result, and drops the watches |
| Responses.FlushDeliversBody | src/main/java/com/jbrisbin/async/http/Response.java:158-165 | a flush gives the sink exactly the concatenated buffered bytes, once |
| Responses.AttachThenLastChunk | src/main/java/com/jbrisbin/async/http/Response.java:156-167 | after attaching, the sink holds the buffered chunks followed by the next live chunk; a last chunk leaves the future pending |
| Requests.MergeHeaders | src/main/java/com/jbrisbin/async/http/Request.java:80-84 | null headers change nothing; otherwise last value wins and keys not mentioned are kept |
| Requests.NewRequest | src/main/java/com/jbrisbin/async/http/Request.java:28-43 | defaults: application/octet-stream, stored length 0, no headers, not complete, not chunked, no packet, one new Response; the client targets the URL's host and port |
| Requests.NewRequestWithHeaders | src/main/java/com/jbrisbin/async/http/Request.java:45-51 | the plain request with the given headers merged in |
| Requests.NewRequestWithBody | src/main/java/com/jbrisbin/async/http/Request.java:53-62 | the request built with the given headers, then the body, the given content type and the body's remaining length as stored length; method, URL, client host and port come from the arguments and there is no channel |
| Requests.GetContentLength | src/main/java/com/jbrisbin/async/http/Request.java:95-97 | the stored length if set, else the body's length if there is a body, else -1 |
| Requests.GetReadableChannel | src/main/java/com/jbrisbin/async/http/Request.java:113-119 | the stored channel, else a reader over the body, else null |
| Requests.SetBodyKeepsStoredLength | src/main/java/com/jbrisbin/async/http/Request.java:95-111 | a body set later does not reach the content length until the stored length is cleared |
| Requests.SettersReadBack | src/main/java/com/jbrisbin/async/http/Request.java:95-124 | a stored length is what getContentLength reports; a cleared one falls back to the body's length; a stored channel is what getReadableByteChannel returns; a body without a channel is wrapped in a reader; setting a body keeps the request's Response |
| Correlation.NewConn | src/main/java/com/jbrisbin/async/http/RequestResponseFilter.java:29-31 | a new filter has an empty stack, nothing cached, and is well formed |
| Correlation.SelectTarget | src/main/java/com/jbrisbin/async/http/RequestResponseFilter.java:39-50 | the cached request if any, else the most recently pushed one, else none |
| Correlation.ApplyFrame | src/main/java/com/jbrisbin/async/http/RequestResponseFilter.java:51-70 | status and headers are copied, content type and sink kept; a 2xx frame with content feeds addContent with the frame's last flag: without a sink, the chunk is appended, a non-last frame leaves the future, callbacks and events alone, and a last frame on a pending future resolves it (with all chunks concatenated when the length matches, or null at total 0), runs every callback's success with the new headers and drops the watches; with a sink the chunk goes to the sink and the callbacks stay; 400/403/404/500 fail the future with that status and reason, leaving body and length alone; any other frame changes only status and headers |
| Correlation.HandleRead | src/main/java/com/jbrisbin/async/http/RequestResponseFilter.java:33-79 | empty stack with nothing cached throws IllegalStateException with nothing changed; only the target's Response changes; a last frame pops the top and clears the cache, any other frame keeps the stack and caches the target |
| Correlation.SingleFrameResponsesMatchNewestFirst | src/main/java/com/jbrisbin/async/http/RequestResponseFilter.java:39-78 | single-frame responses are matched with the pending requests from the top of the stack down |
| Correlation.ReadFollowsLatestWrite | src/main/java/com/jbrisbin/async/http/RequestResponseFilter.java:39-50 | with nothing cached, the next read after a request's first write is matched with that request |
| Correlation.Uri | src/main/java/com/jbrisbin/async/http/RequestResponseFilter.java:89-92 | the path, or path + "?" + query when there is a query |
| Correlation.HandleWrite | src/main/java/com/jbrisbin/async/http/RequestResponseFilter.java:82-166 | a request without a packet is pushed once and gets its packet; a request with one is never pushed again; the body is cleared; GET/HEAD/DELETE become complete on the first write, PUT/POST keep their flag; URL, client, method, content type, stored length, chunked flag, channel and Response are unchanged, and so are the headers except on a chunked first write |
| Correlation.WriteEmitsInOrder | src/main/java/com/jbrisbin/async/http/RequestResponseFilter.java:137-158 | one write sends the header (first write only), then one Content exactly when a body was set, then a trailer exactly when the request is complete |
| Correlation.FirstWritePacket | src/main/java/com/jbrisbin/async/http/RequestResponseFilter.java:87-141 | the packet has the method, URI, custom headers and content type; chunked requests get no length and a Transfer-Encoding entry only in their own headers; others get getContentLength |
| Correlation.SettersShapeFirstWrite | src/main/java/com/jbrisbin/async/http/RequestResponseFilter.java:122-131 | after setChunked(true) the first write's packet has no content length; after setContentLength(n) on a non-chunked request it has length n; after setContentType(t) it has content type t |
| Correlation.CompleteEndsWithTrailer | src/main/java/com/jbrisbin/async/http/RequestResponseFilter.java:154-158 | after setComplete(true) a write, first or later, ends with a trailer |
| Correlation.RewriteNeverPushes | src/main/java/com/jbrisbin/async/http/RequestResponseFilter.java:87-158 | a second write of the same request does not push or resend the header, and resends the trailer when the request is complete |
| Correlation.DeleteSendsHeaderAndTrailer | src/main/java/com/jbrisbin/async/http/RequestResponseFilter.java:112-158 | a bodiless DELETE's first write sends the header and a trailer, no content |
| Correlation.WriteAll | src/main/java/com/jbrisbin/async/http/RequestResponseFilter.java:82-141 | writes in sequence keep the connection well formed and the cache untouched |
| Correlation.WriteAllStacksInOrder | src/main/java/com/jbrisbin/async/http/RequestResponseFilter.java:137-140 | distinct requests written for the first time are pushed in the order written, the last one on top |
| Correlation.WriteAllLeavesOthers | src/main/java/com/jbrisbin/async/http/RequestResponseFilter.java:82-166 | a run of writes leaves every request it does not name as it was |
| Correlation.WriteAllBuildsPackets | src/main/java/com/jbrisbin/async/http/RequestResponseFilter.java:87-141 | every request written has a header packet afterwards |
| Correlation.TwoWritesStacked | src/main/java/com/jbrisbin/async/http/RequestResponseFilter.java:137-140 | two first writes leave the first request under the second |
| Correlation.FreshResponseAnswered | src/main/java/com/jbrisbin/async/http/RequestResponseFilter.java:59-60 | a 200 response with body d, in one or two frames, leaves d as the content |
| Correlation.ReadAgainstTwoStacked | src/main/java/com/jbrisbin/async/http/RequestResponseFilter.java:39-78 | with two stacked requests and nothing cached, a frame goes to the top one |
| Correlation.TwoResponsesAgainstTwoStacked | src/main/java/com/jbrisbin/async/http/RequestResponseFilter.java:33-79 | the first response read goes to the request on top, the second to the one beneath |
| Correlation.PipelinedGetsAnsweredInReverse | src/main/java/com/jbrisbin/async/http/RequestResponseFilter.java:31-78 | GET a then GET b, answered "AB" then "Z": b's Response holds "AB" and a's holds "Z" |
| HttpClient.Connect | src/main/java/com/jbrisbin/async/http/AsyncHttpClient.java:34-48 | a new client has the given host and port, timeout 30, no transport and no connection |
| HttpClient.StartTransport | src/main/java/com/jbrisbin/async/http/AsyncHttpClient.java:78-94 | builds the chain [TransportFilter, HttpClientFilter, RequestResponseFilter] only when none exists |
| HttpClient.GetConnection | src/main/java/com/jbrisbin/async/http/AsyncHttpClient.java:96-110 | connects only when no connection is cached; a failed attempt leaves it null; a client without a chain gets the default three-filter chain |
| HttpClient.ConnectOnceThenReuse | src/main/java/com/jbrisbin/async/http/AsyncHttpClient.java:96-110 | once connected later calls do not reconnect; after a failure the next call attempts again; the transport is built once |
| HttpClient.FirstIndexOf | src/main/java/com/jbrisbin/async/http/AsyncHttpClient.java:112-119 | the first position holding the element: it holds it and no earlier one does |
| HttpClient.FindRequestResponseFilterIndex | src/main/java/com/jbrisbin/async/http/AsyncHttpClient.java:112-119 | the first index holding a RequestResponseFilter, or IllegalStateException when there is none, or a NullPointerException when the chain is not built |
| HttpClient.InsertAt | src/main/java/com/jbrisbin/async/http/AsyncHttpClient.java:154-157 | List.add at an index: IndexOutOfBoundsException outside 0..size, else the element lands there and the rest shift |
| HttpClient.AddUpstreamFilter | src/main/java/com/jbrisbin/async/http/AsyncHttpClient.java:149-152 | inserts at the RequestResponseFilter's first index minus one, with List.add's outcome, on any chain holding one; in the default chain the filter lands at index 1 before HttpClientFilter and the chain grows by one; a RequestResponseFilter at index 0 gives IndexOutOfBoundsException(-1); a missing one gives IllegalStateException; a chain not yet built gives a NullPointerException |
| HttpClient.AddFilter | src/main/java/com/jbrisbin/async/http/AsyncHttpClient.java:154-157 | inserts at the given index when it is within 0..size, giving exactly the chain List.add builds and changing nothing else; otherwise IndexOutOfBoundsException with that index; a chain not yet built gives a NullPointerException |
| HttpClient.AddDownstreamFilter | src/main/java/com/jbrisbin/async/http/AsyncHttpClient.java:159-162 | appends to the chain and changes nothing else; a chain not yet built gives a NullPointerException |
| HttpClient.Write | src/main/java/com/jbrisbin/async/http/AsyncHttpClient.java:183-186 | getConnection then one filter write; a null connection is a NullPointerException with the filter untouched |
| HttpClient.Send | src/main/java/com/jbrisbin/async/http/AsyncHttpClient.java:182-186 | one write, returning the request's own Response |
| HttpClient.Complete | src/main/java/com/jbrisbin/async/http/AsyncHttpClient.java:175-180 | the request is marked complete, then the connection state is exactly one filter write of the marked request, which ends with a trailer; on a throw the mark stays and nothing is written; the client is as getConnection leaves it; its own Response is returned |
| HttpClient.Start | src/main/java/com/jbrisbin/async/http/AsyncHttpClient.java:169-173 | one write, returning a channel bound to the request; a null connection is a NullPointerException with nothing written; the client is as getConnection leaves it |
| HttpClient.ChannelWrite | src/main/java/com/jbrisbin/async/http/AsyncHttpClient.java:208-214 | the buffer becomes the body, then the connection state is exactly one filter write of that request, which sends it as Content and clears it; on a throw the body stays set and nothing is written; the client is as getConnection leaves it; the count measured before the write is returned |
| HttpClient.SendAll | src/main/java/com/jbrisbin/async/http/AsyncHttpClient.java:188-195 | each request is written once in argument order; the i-th Response returned is request i's; with no connection the first write throws; the client is as getConnection leaves it, and no arguments change nothing |
| HttpClient.SendNext | src/main/java/com/jbrisbin/async/http/AsyncHttpClient.java:188-195 | one send inside send(requests...): only the first can throw; a send that does not throw extends the run of writes by that request and answers with its own Response; the client is as the first getConnection left it |
| HttpClient.SendAllStacksArguments | src/main/java/com/jbrisbin/async/http/AsyncHttpClient.java:188-195 | distinct new requests sent together are pushed in argument order, so the last argument is matched first |
| HttpClient.FactoriesBuildBodilessRequests | src/main/java/com/jbrisbin/async/http/AsyncHttpClient.java:50-76 | each factory sets its method; the POST factory ignores its content and builds a request with no body |
| Uploads.WrittenCheckRejectsEveryMethod | src/main/java/com/jbrisbin/async/http/Upload.java:18 | the written check is true for every method |
| Uploads.NewUploadAsWritten | src/main/java/com/jbrisbin/async/http/Upload.java:15-21 | always throws IllegalArgumentException |
| Uploads.NewUploadWithHeadersAsWritten | src/main/java/com/jbrisbin/async/http/Upload.java:23-29 | always throws IllegalArgumentException |
| Uploads.NewUploadWithBodyAsWritten | src/main/java/com/jbrisbin/async/http/Upload.java:31-37 | always throws IllegalArgumentException |
| Uploads.PutAndPostUploadsRefused | src/main/java/com/jbrisbin/async/http/Upload.java:15-29 | a PUT upload and a POST upload with headers are refused |
| Uploads.NewUpload | src/main/java/com/jbrisbin/async/http/Upload.java:15-21 | corrected: succeeds exactly for PUT and POST |
| Uploads.NewUploadWithHeaders | src/main/java/com/jbrisbin/async/http/Upload.java:23-29 | corrected: succeeds exactly for PUT and POST |
| Uploads.NewUploadWithBody | src/main/java/com/jbrisbin/async/http/Upload.java:31-37 | corrected: succeeds exactly for PUT and POST, with the request the body constructor builds |
| Uploads.IntendedCheckDiffersOnlyOnPutAndPost | src/main/java/com/jbrisbin/async/http/Upload.java:18 | the written and intended checks differ exactly on PUT and POST |

## Findings

| source | as written | input that shows it | evidently intended | confidence | as-written member | corrected member |
|---|---|---|---|---|---|---|
| src/main/java/com/jbrisbin/async/http/Upload.java:18 | `method != PUT \|\| method != POST` rejects every method | `new Upload(url, PUT, file)` throws "Uploads have to use PUT or POST" | `method != PUT && method != POST`, rejecting only methods other than PUT and POST | high (not executed) | Uploads.NewUploadAsWritten, Uploads.PutAndPostUploadsRefused | Uploads.NewUpload |

## Left out

- Grizzly transport and filter-chain execution are not modelled: connecting, `ctx.write` dispatch, stop and invoke actions, the remainder passed with `getStopAction(content)`, `dispose` and `setTimeout`. A write through the connection is the filter's `handleWrite`, and what it writes down the chain is appended to the `wire` trace.
- A message that is not a Request is passed on unchanged by `handleWrite`. The model's write takes a request only, because that branch does nothing to the state.
- The internals of SafeFutureImpl are not modelled: blocking `get` with or without a timeout, `cancel` and `isCancelled`. They are foreign code. `isDone` is `!future.Pending?`. The resolution rules the model relies on are stated as assumptions above.
- Locking and races are not modelled: `synchronized` blocks, the concurrent callback queue, the `pop` outside the lock and the sink assignment outside the lock. The model is sequential.
- Responses.AttachThenLastChunk: ByteBuffer position mechanics are left out. In the code, a flushed chunk's buffer is consumed by the sink write. A later assembly after the sink is detached would copy fewer bytes than the model's `Assemble` shows.
- Responses.Assemble: `contentLength.intValue()` truncation of lengths above 2^31-1 is not modelled, because lengths are unbounded integers here.
- Responses.AddChunk: partial sink writes are not modelled. The sink is assumed to take the whole chunk.
- Partial ByteBuffer reads are not modelled. BufferReadableByteChannel is represented by `ReadSource.BodyReader`, a thin wrapper over the body's bytes.
- `java.net.URL` parsing and MalformedURLException are not modelled. The factories and constructors take host, port, path and query already split.
- The body-carrying Request constructor is not given a null body. With one it throws a NullPointerException when reading `remaining()`. Its body parameter is non-null bytes.
- A Request builds its own AsyncHttpClient for the URL's host and port. The model records only that host and port, and `Request.send`, `start` and `complete` are the `HttpClient` operations on a session.
- `transferTo`, the host and port getters and setters, `getTimeout`, the Response getters, Response's `setStatus` and `setContentType`, `getRequest`, `toString` and logging are not modelled. They only read or store a field, or do nothing.
- The HttpException constructors other than (reason, status), ResponseCallback and the Http11Headers constants are data carriers. They appear as `HttpError`, `Callback` and plain strings.
- HttpClient.SendAll: the connection attempt's outcome is one value for the whole call. After a failed first attempt the code throws anyway, so no later attempt could be observed.
- SetHeadersOverwrite: a null map is not modelled. With overwrite the code stores the null, and the next `handleRead` of a frame with any header then throws a NullPointerException when it puts that header into the null map. Without overwrite, putAll of null throws, as `Responses.SetHeaders` models.
- SetHeadersOverwrite: aliasing is not modelled. With overwrite the Response keeps the caller's own map, so later header merges in `handleRead` also change the caller's map. Maps are values here.

=== FILE: async_http_client.dfy ===
/** AsyncHttpClient: builds its transport and filter chain lazily, connects
    once and reuses the connection, and writes requests through the chain's
    RequestResponseFilter. The outcome of a connection attempt, which the
    transport decides, is a parameter `attempt` (None when the attempt
    failed, timed out or was interrupted). */
module HttpClient {
  import opened HttpTypes
  import opened Responses
  import opened Requests
  import opened Correlation

  /** Identifies an established transport connection. */
  type ConnectionId = nat

  datatype FilterKind = TransportFilter | HttpClientFilter | RequestResponseFilter | CustomFilter(name: string)

  const DefaultTimeout: int := 30

  const MissingFilterMessage: string := "No HttpClientFilter found in the filter chain! This should not happen."

  /** The client's fields. The transport and its filter chain are built
      together, so `chain` is None exactly while neither exists. */
  datatype Client = Client(
    host: string,
    port: int,
    timeout: int,
    chain: Option<seq<FilterKind>>,
    connection: Option<ConnectionId>)

  /** A client together with the connection state its RequestResponseFilter
      keeps. */
  datatype Session = Session(client: Client, conn: Conn)

  /** The Response a call hands back: the one belonging to a request. */
  datatype ResponseRef = ResponseOf(request: RequestId)

  /** The RequestByteChannel start() hands back. */
  datatype RequestChannel = RequestChannel(request: RequestId)

  /** The state after a call, and what it returned or threw. */
  datatype Outcome<T> = Outcome(session: Session, result: Result<T, JavaException>)

  /** AsyncHttpClient.connect(host, port): a client with nothing built. */
  function Connect(host: string, port: int): (c: Client)
    ensures c.host == host && c.port == port && c.timeout == DefaultTimeout
    ensures c.chain.None? && c.connection.None?
  {
    Client(host, port, DefaultTimeout, None, None)
  }

  function DefaultChain(): seq<FilterKind>
  {
    [TransportFilter, HttpClientFilter, RequestResponseFilter]
  }

  /** startTransport: builds the transport and its chain only once. */
  function StartTransport(c: Client): (c': Client)
    ensures c.chain.None? ==> c'.chain == Some([TransportFilter, HttpClientFilter, RequestResponseFilter])
    ensures c.chain.Some? ==> c' == c
    ensures c' == c.(chain := c'.chain)
  {
    if c.chain.None? then c.(chain := Some(DefaultChain())) else c
  }

  /** getConnection: only a client without a connection starts its
      transport and attempts to connect; a failed attempt leaves the
      connection null. */
  function GetConnection(c: Client, attempt: Option<ConnectionId>): (c': Client)
    ensures c.connection.Some? ==> c' == c
    ensures c.connection.None? ==> c'.connection == attempt && c'.chain.Some?
    ensures c.connection.None? && c.chain.None? ==>
              c'.chain == Some([TransportFilter, HttpClientFilter, RequestResponseFilter])
    ensures c.chain.Some? ==> c'.chain == c.chain
    ensures c'.host == c.host && c'.port == c.port && c'.timeout == c.timeout
  {
    if c.connection.None? then StartTransport(c).(connection := attempt) else c
  }

  /** Once connected, later calls never reconnect whatever an attempt would
      give; after a failed attempt the next call tries again. */
  lemma ConnectOnceThenReuse(c: Client, first: Option<ConnectionId>, later: Option<ConnectionId>)
    ensures first.Some? || c.connection.Some? ==>
              GetConnection(GetConnection(c, first), later) == GetConnection(c, first)
    ensures c.connection.None? && first.None? ==>
              GetConnection(GetConnection(c, first), later).connection == later
    ensures GetConnection(GetConnection(c, first), later).chain == GetConnection(c, first).chain
  {
  }

  /** The first position of `x` in `s`. */
  function FirstIndexOf(s: seq<FilterKind>, x: FilterKind): (i: nat)
    requires x in s
    ensures i < |s| && s[i] == x
    ensures forall j :: 0 <= j < i ==> s[j] != x
  {
    if s[0] == x then 0
    else
      assert x in s[1..];
      1 + FirstIndexOf(s[1..], x)
  }

  /** findRequestResponseFilterIndex: the first position holding a
      RequestResponseFilter. A chain that was never built is a
      NullPointerException. */
  method FindRequestResponseFilterIndex(chain: Option<seq<FilterKind>>) returns (r: Result<nat, JavaException>)
    ensures chain.None? ==> r == Err(NullPointer)
    ensures r.Ok? ==> chain.Some? && r.value < |chain.value| && chain.value[r.value] == RequestResponseFilter
    ensures r.Ok? ==> forall j :: 0 <= j < r.value ==> chain.value[j] != RequestResponseFilter
    ensures chain.Some? && r.Err? ==>
              r.error == IllegalState(MissingFilterMessage)
              && forall j :: 0 <= j < |chain.value| ==> chain.value[j] != RequestResponseFilter
    ensures chain.Some? ==> (r.Ok? <==> RequestResponseFilter in chain.value)
    ensures r.Ok? ==> r.value == FirstIndexOf(chain.value, RequestResponseFilter)
  {
    if chain.None? {
      return Err(NullPointer);
    }
    var filters := chain.value;
    var i := 0;
    while i < |filters|
      invariant 0 <= i <= |filters|
      invariant forall j :: 0 <= j < i ==> filters[j] != RequestResponseFilter
    {
      if filters[i] == RequestResponseFilter {
        return Ok(i);
      }
      i := i + 1;
    }
    return Err(IllegalState(MissingFilterMessage));
  }

  /** List.add(index, element): IndexOutOfBoundsException outside 0..size. */
  function InsertAt(filters: seq<FilterKind>, idx: int, f: FilterKind): (r: Result<seq<FilterKind>, JavaException>)
    ensures r.Err? <==> idx < 0 || idx > |filters|
    ensures r.Err? ==> r.error == IndexOutOfBounds(idx)
    ensures r.Ok? ==> |r.value| == |filters| + 1 && r.value[idx] == f
    ensures r.Ok? ==> r.value[..idx] == filters[..idx] && r.value[idx + 1..] == filters[idx..]
  {
    if idx < 0 || idx > |filters| then Err(IndexOutOfBounds(idx))
    else Ok(filters[..idx] + [f] + filters[idx..])
  }

  /** addUpstreamFilter: inserts the filter at the RequestResponseFilter's
      index minus one, so in the default chain it lands before the
      HttpClientFilter, and a RequestResponseFilter at the head makes the
      insertion index -1. */
  method AddUpstreamFilter(c: Client, f: FilterKind) returns (r: Result<Client, JavaException>)
    ensures c.chain.None? ==> r == Err(NullPointer)
    ensures c.chain.Some? && RequestResponseFilter !in c.chain.value ==>
              r == Err(IllegalState(MissingFilterMessage))
    ensures r.Ok? ==>
              c.chain.Some? && r.value == c.(chain := r.value.chain) && r.value.chain.Some?
              && |r.value.chain.value| == |c.chain.value| + 1
    ensures c.chain.Some? && RequestResponseFilter in c.chain.value ==>
              var at := FirstIndexOf(c.chain.value, RequestResponseFilter) - 1;
              var inserted := InsertAt(c.chain.value, at, f);
              r == if inserted.Ok? then Ok(c.(chain := Some(inserted.value))) else Err(inserted.error)
    ensures c.chain.Some? && |c.chain.value| > 0 && c.chain.value[0] == RequestResponseFilter ==>
              r == Err(IndexOutOfBounds(-1))
    ensures c.chain == Some([TransportFilter, HttpClientFilter, RequestResponseFilter]) ==>
              r == Ok(c.(chain := Some([TransportFilter, f, HttpClientFilter, RequestResponseFilter])))
  {
    var idx := FindRequestResponseFilterIndex(c.chain);
    if idx.Err? {
      return Err(idx.error);
    }
    var inserted := InsertAt(c.chain.value, idx.value as int - 1, f);
    if c.chain == Some(DefaultChain()) {
      assert c.chain.value[2] == RequestResponseFilter;
      assert idx.value == 2;
      assert inserted.value == [TransportFilter, f, HttpClientFilter, RequestResponseFilter];
    }
    if inserted.Err? {
      return Err(inserted.error);
    }
    return Ok(c.(chain := Some(inserted.value)));
  }

  /** addFilter(idx, filter) */
  function AddFilter(c: Client, idx: int, f: FilterKind): (r: Result<Client, JavaException>)
    ensures c.chain.None? ==> r == Err(NullPointer)
    ensures c.chain.Some? ==> (r.Ok? <==> 0 <= idx <= |c.chain.value|)
    ensures c.chain.Some? && r.Err? ==> r.error == IndexOutOfBounds(idx)
    ensures r.Ok? ==>
              c.chain.Some? && r.value.chain.Some? && 0 <= idx < |r.value.chain.value|
              && r.value.chain.value[idx] == f
              && r.value == c.(chain := Some(InsertAt(c.chain.value, idx, f).value))
  {
    match c.chain
    case None => Err(NullPointer)
    case Some(filters) =>
      match InsertAt(filters, idx, f)
      case Err(e) => Err(e)
      case Ok(fs) => Ok(c.(chain := Some(fs)))
  }

  /** addDownstreamFilter: appends to the chain. */
  function AddDownstreamFilter(c: Client, f: FilterKind): (r: Result<Client, JavaException>)
    ensures c.chain.None? ==> r == Err(NullPointer)
    ensures c.chain.Some? ==> r.Ok? && r.value.chain == Some(c.chain.value + [f])
    ensures r.Ok? ==> r.value == c.(chain := Some(c.chain.value + [f]))
  {
    match c.chain
    case None => Err(NullPointer)
    case Some(filters) => Ok(c.(chain := Some(filters + [f])))
  }

  /** getConnection().write(request): a null connection is a
      NullPointerException, after the connection attempt has happened. */
  function Write(s: Session, id: RequestId, attempt: Option<ConnectionId>): (o: Outcome<RequestId>)
    requires WellFormed(s.conn) && id < |s.conn.requests|
    ensures o.session.client == GetConnection(s.client, attempt)
    ensures o.result.Err? <==> o.session.client.connection.None?
    ensures o.result.Err? ==> o.result.error == NullPointer && o.session.conn == s.conn
    ensures o.result.Ok? ==> o.result.value == id && o.session.conn == HandleWrite(s.conn, id)
  {
    var client := GetConnection(s.client, attempt);
    if client.connection.None? then Outcome(Session(client, s.conn), Err(NullPointer))
    else Outcome(Session(client, HandleWrite(s.conn, id)), Ok(id))
  }

  /** send(request): one write, then the request's own Response. */
  function Send(s: Session, id: RequestId, attempt: Option<ConnectionId>): (o: Outcome<ResponseRef>)
    requires WellFormed(s.conn) && id < |s.conn.requests|
    ensures WellFormed(o.session.conn) && |o.session.conn.requests| == |s.conn.requests|
    ensures o.session.client == GetConnection(s.client, attempt)
    ensures o.result.Err? <==> s.client.connection.None? && attempt.None?
    ensures o.result.Err? ==> o.result.error == NullPointer && o.session.conn == s.conn
    ensures o.result.Ok? ==> o.result.value == ResponseOf(id) && o.session.conn == HandleWrite(s.conn, id)
  {
    var w := Write(s, id, attempt);
    Outcome(w.session, if w.result.Ok? then Ok(ResponseOf(id)) else Err(w.result.error))
  }

  /** complete(request): marks the request complete, writes it once and
      returns its Response. The flag is set even when the write throws. */
  function Complete(s: Session, id: RequestId, attempt: Option<ConnectionId>): (o: Outcome<ResponseRef>)
    requires WellFormed(s.conn) && id < |s.conn.requests|
    ensures WellFormed(o.session.conn) && |o.session.conn.requests| == |s.conn.requests|
    ensures o.session.conn.requests[id].complete
    ensures o.session.client == GetConnection(s.client, attempt)
    ensures o.result.Err? <==> s.client.connection.None? && attempt.None?
    ensures o.result.Ok? ==>
              o.result.value == ResponseOf(id)
              && |o.session.conn.wire| > |s.conn.wire| && Last(o.session.conn.wire) == Trailer
              && o.session.conn.requests[id].packet.Some?
    ensures var marked := s.conn.(requests := s.conn.requests[id := SetComplete(s.conn.requests[id], true)]);
            && WellFormed(marked)
            && (o.result.Ok? ==> o.session.conn == HandleWrite(marked, id))
            && (o.result.Err? ==> o.session.conn == marked)
  {
    var marked := s.(conn := s.conn.(requests := s.conn.requests[id := SetComplete(s.conn.requests[id], true)]));
    var w := Write(marked, id, attempt);
    WriteEmitsInOrder(marked.conn, id);
    var wire := w.session.conn.wire;
    assert w.result.Ok? ==> |wire[|marked.conn.wire|..]| > 0 && Last(wire[|marked.conn.wire|..]) == Trailer;
    Outcome(w.session, if w.result.Ok? then Ok(ResponseOf(id)) else Err(w.result.error))
  }

  /** start(request): one write (the header, when the request is new), then a
      channel that writes further body buffers into the same request. */
  function Start(s: Session, id: RequestId, attempt: Option<ConnectionId>): (o: Outcome<RequestChannel>)
    requires WellFormed(s.conn) && id < |s.conn.requests|
    ensures WellFormed(o.session.conn) && |o.session.conn.requests| == |s.conn.requests|
    ensures o.result.Err? <==> s.client.connection.None? && attempt.None?
    ensures o.session.client == GetConnection(s.client, attempt)
    ensures o.result.Err? ==> o.result.error == NullPointer && o.session.conn == s.conn
    ensures o.result.Ok? ==>
              o.result.value == RequestChannel(id) && o.session.conn == HandleWrite(s.conn, id)
  {
    var w := Write(s, id, attempt);
    Outcome(w.session, if w.result.Ok? then Ok(RequestChannel(id)) else Err(w.result.error))
  }

  /** RequestByteChannel.write(buffer): sets the buffer as the request's body,
      writes the request once, and returns the buffer's remaining count as
      measured before the write. */
  function ChannelWrite(s: Session, ch: RequestChannel, buffer: Bytes, attempt: Option<ConnectionId>): (o: Outcome<int>)
    requires WellFormed(s.conn) && ch.request < |s.conn.requests|
    ensures WellFormed(o.session.conn) && |o.session.conn.requests| == |s.conn.requests|
    ensures o.result.Err? <==> s.client.connection.None? && attempt.None?
    ensures o.session.client == GetConnection(s.client, attempt)
    ensures o.result.Err? ==> o.session.conn.requests[ch.request].body == Some(buffer)
    ensures |o.session.conn.wire| >= |s.conn.wire|
    ensures o.result.Ok? ==>
              o.result.value == |buffer|
              && o.session.conn.requests[ch.request].body.None?
              && Content(buffer) in o.session.conn.wire[|s.conn.wire|..]
    ensures var withBody := s.conn.(requests := s.conn.requests[ch.request := SetBody(s.conn.requests[ch.request], Some(buffer))]);
            && WellFormed(withBody)
            && (o.result.Ok? ==> o.session.conn == HandleWrite(withBody, ch.request))
            && (o.result.Err? ==> o.session.conn == withBody)
  {
    var id := ch.request;
    var withBody := s.(conn := s.conn.(requests := s.conn.requests[id := SetBody(s.conn.requests[id], Some(buffer))]));
    var w := Write(withBody, id, attempt);
    WriteEmitsInOrder(withBody.conn, id);
    var out := w.session.conn.wire[|withBody.conn.wire|..];
    assert w.result.Ok? ==> Content(buffer) == out[if s.conn.requests[id].packet.None? then 1 else 0];
    Outcome(w.session, if w.result.Ok? then Ok(|buffer|) else Err(w.result.error))
  }

  /** send(requests...): each request written once, in argument order; the
      i-th Response returned belongs to the i-th request. The first thrown
      exception ends the call. */
  method SendAll(s: Session, ids: seq<RequestId>, attempt: Option<ConnectionId>) returns (o: Outcome<seq<ResponseRef>>)
    requires WellFormed(s.conn) && forall k :: 0 <= k < |ids| ==> ids[k] < |s.conn.requests|
    ensures o.result.Ok? <==> |ids| == 0 || s.client.connection.Some? || attempt.Some?
    ensures o.result.Ok? ==>
              |o.result.value| == |ids|
              && (forall k :: 0 <= k < |ids| ==> o.result.value[k] == ResponseOf(ids[k]))
              && o.session.conn == WriteAll(s.conn, ids)
    ensures o.result.Err? ==> o.result.error == NullPointer && o.session.conn == s.conn
    ensures |ids| > 0 ==> o.session.client == GetConnection(s.client, attempt)
    ensures |ids| == 0 ==> o.session == s
  {
    if |ids| == 0 {
      return Outcome(s, Ok([]));
    }
    var first := SendNext(s, s, ids, 0, attempt);
    if first.result.Err? {
      return Outcome(first.session, Err(first.result.error));
    }
    var cur := first.session;
    var responses: seq<ResponseRef> := [first.result.value];
    var i := 1;
    while i < |ids|
      invariant 1 <= i <= |ids|
      invariant cur.conn == WriteFirst(s.conn, ids, i)
      invariant cur.client == first.session.client
      invariant s.client.connection.Some? || attempt.Some?
      invariant |responses| == i
      invariant forall k :: 0 <= k < i ==> responses[k] == ResponseOf(ids[k])
    {
      var sent := SendNext(s, cur, ids, i, attempt);
      AnswersGrow(responses, ids, i);
      responses := responses + [sent.result.value];
      cur := sent.session;
      i := i + 1;
    }
    WriteFirstAll(s.conn, ids);
    return Outcome(cur, Ok(responses));
  }

  /** One step of send(requests...): send(request) on the i-th argument.
      The client is as getConnection first left it, only the first step
      can throw, and a write that does not throw extends the run of writes
      and answers with the request's own Response. */
  method SendNext(s: Session, cur: Session, ids: seq<RequestId>, i: nat, attempt: Option<ConnectionId>)
    returns (sent: Outcome<ResponseRef>)
    requires WellFormed(s.conn) && forall k :: 0 <= k < |ids| ==> ids[k] < |s.conn.requests|
    requires i < |ids| && cur.conn == WriteFirst(s.conn, ids, i)
    requires i == 0 ==> cur.client == s.client && cur.conn == s.conn
    requires i > 0 ==> cur.client == GetConnection(s.client, attempt)
    requires i > 0 ==> s.client.connection.Some? || attempt.Some?
    ensures sent.session.client == GetConnection(s.client, attempt)
    ensures sent.result.Err? <==> i == 0 && s.client.connection.None? && attempt.None?
    ensures sent.result.Err? ==> sent.result.error == NullPointer && sent.session.conn == s.conn
    ensures sent.result.Ok? ==>
              sent.result.value == ResponseOf(ids[i]) && sent.session.conn == WriteFirst(s.conn, ids, i + 1)
  {
    sent := Send(cur, ids[i], attempt);
  }

  lemma AnswersGrow(responses: seq<ResponseRef>, ids: seq<RequestId>, i: nat)
    requires i < |ids| && |responses| == i
    requires forall k :: 0 <= k < i ==> responses[k] == ResponseOf(ids[k])
    ensures forall k :: 0 <= k < i + 1 ==> (responses + [ResponseOf(ids[i])])[k] == ResponseOf(ids[k])
  {
  }

  /** The first `n` of `ids` written in order: Correlation.WriteAll
      counted by an index rather than by a prefix, so that the loop of
      send(requests...) can state its invariant without slicing `ids`;
      WriteFirstIsWriteAll shows the two agree. */
  function WriteFirst(c: Conn, ids: seq<RequestId>, n: nat): (c': Conn)
    requires WellFormed(c) && forall k :: 0 <= k < |ids| ==> ids[k] < |c.requests|
    requires n <= |ids|
    ensures WellFormed(c') && |c'.requests| == |c.requests|
  {
    if n == 0 then c else HandleWrite(WriteFirst(c, ids, n - 1), ids[n - 1])
  }

  /** Writing the first `n` ids one by one is writing the prefix of length
      `n` as a whole. */
  lemma {:induction false} WriteFirstIsWriteAll(c: Conn, ids: seq<RequestId>, n: nat)
    requires WellFormed(c) && forall k :: 0 <= k < |ids| ==> ids[k] < |c.requests|
    requires n <= |ids|
    ensures WriteFirst(c, ids, n) == WriteAll(c, ids[..n])
  {
    if n > 0 {
      WriteFirstIsWriteAll(c, ids, n - 1);
      assert DropLast(ids[..n]) == ids[..n - 1] && Last(ids[..n]) == ids[n - 1];
    }
  }

  lemma WriteFirstAll(c: Conn, ids: seq<RequestId>)
    requires WellFormed(c) && forall k :: 0 <= k < |ids| ==> ids[k] < |c.requests|
    ensures WriteFirst(c, ids, |ids|) == WriteAll(c, ids)
  {
    WriteFirstIsWriteAll(c, ids, |ids|);
    assert ids[..|ids|] == ids;
  }

  /** Sending distinct new requests in one call stacks them in argument
      order, so the last argument is on top when the responses come in. */
  lemma SendAllStacksArguments(s: Session, ids: seq<RequestId>, attempt: Option<ConnectionId>, o: Outcome<seq<ResponseRef>>)
    requires WellFormed(s.conn) && forall k :: 0 <= k < |ids| ==> ids[k] < |s.conn.requests|
    requires forall k :: 0 <= k < |ids| ==> s.conn.requests[ids[k]].packet.None?
    requires forall j, k :: 0 <= j < k < |ids| ==> ids[j] != ids[k]
    requires o.result.Ok? && o.session.conn == WriteAll(s.conn, ids)
    ensures o.session.conn.pending == s.conn.pending + ids
    ensures |ids| > 0 && o.session.conn.cached.None? ==> SelectTarget(o.session.conn) == Some(Last(ids))
  {
    WriteAllStacksInOrder(s.conn, ids);
  }

  /** The static factories. The POST factory's content is never used. */
  function Get(url: Url, headers: Option<Headers>): Request
  {
    NewRequestWithHeaders(url, GET, headers)
  }

  function Put(url: Url, headers: Option<Headers>): Request
  {
    NewRequestWithHeaders(url, PUT, headers)
  }

  function Post(url: Url, headers: Option<Headers>, content: Bytes): Request
  {
    NewRequestWithHeaders(url, POST, headers)
  }

  function Delete(url: Url, headers: Option<Headers>): Request
  {
    NewRequestWithHeaders(url, DELETE, headers)
  }

  /** Every factory builds a request without a body whose content length is
      the stored 0; the content handed to the POST factory is dropped. */
  lemma FactoriesBuildBodilessRequests(url: Url, headers: Option<Headers>, content: Bytes, other: Bytes)
    ensures Get(url, None) == NewRequest(url, GET)
    ensures Get(url, headers).httpMethod == GET && Put(url, headers).httpMethod == PUT
    ensures Post(url, headers, content).httpMethod == POST && Delete(url, headers).httpMethod == DELETE
    ensures Post(url, headers, content) == Post(url, headers, other)
    ensures Post(url, headers, content).body.None?
    ensures GetContentLength(Post(url, headers, content)) == 0
    ensures Get(url, headers).headers == MergeHeaders(map[], headers)
  {
  }
}

=== FILE: http_types.dfy ===
/** Types shared by the client's components. Java's nullable references
    become `Option`, and a thrown exception becomes the `Err` side of a
    `Result`. */
module HttpTypes {

  datatype Option<+T> = None | Some(value: T)

  datatype Result<+T, +E> = Ok(value: T) | Err(error: E)

  /** The bytes of a java.nio.ByteBuffer between its position and its limit. */
  type Bytes = seq<bv8>

  /** A java.util.Map<String, String> of header names to values. */
  type Headers = map<string, string>

  /** Request.Method */
  datatype Method = GET | PUT | POST | DELETE | HEAD

  /** The parts of a java.net.URL the client reads. `port` is -1 when the
      URL names no port, as java.net.URL.getPort reports it. */
  datatype Url = Url(host: string, port: int, path: string, query: Option<string>)

  /** The Java exceptions this core throws. */
  datatype JavaException =
    | IllegalState(message: string)
    | IllegalArgument(message: string)
    | IndexOutOfBounds(index: int)
    | NullPointer

  /** HttpException: a reason phrase together with an HTTP status code. */
  datatype HttpError = HttpError(reason: string, status: int)

  /** The number of bytes in a list of chunks. */
  function TotalLength(chunks: seq<Bytes>): nat
  {
    if |chunks| == 0 then 0
    else TotalLength(chunks[..|chunks| - 1]) + |chunks[|chunks| - 1]|
  }

  /** The chunks laid end to end, in list order. */
  function Concat(chunks: seq<Bytes>): (all: Bytes)
    ensures |all| == TotalLength(chunks)
  {
    if |chunks| == 0 then []
    else Concat(chunks[..|chunks| - 1]) + chunks[|chunks| - 1]
  }

  /** A buffer of `n` zero bytes, as ByteBuffer.allocate leaves it. */
  function Zeros(n: nat): (z: Bytes)
    ensures |z| == n
  {
    seq(n, _ => 0 as bv8)
  }

  function Last<T>(s: seq<T>): T
    requires |s| > 0
  {
    s[|s| - 1]
  }

  function DropLast<T>(s: seq<T>): seq<T>
    requires |s| > 0
  {
    s[..|s| - 1]
  }

  /** Concatenation regroups freely. */
  lemma AppendAssoc<T>(x: seq<T>, y: seq<T>, z: seq<T>)
    ensures (x + y) + z == x + (y + z)
  {
  }

  /** The last element of a concatenation comes from its non-empty right
      part. */
  lemma LastOfAppend<T>(a: seq<T>, b: seq<T>)
    requires |b| > 0
    ensures DropLast(a + b) == a + DropLast(b) && Last(a + b) == Last(b)
  {
  }
}

=== FILE: request.dfy ===
/** A Request descriptor: method, URL, headers, an optional body buffer,
    content type and length, the chunked and complete flags, the header
    packet once one has been built, and the one Response created with it. */
module Requests {
  import opened HttpTypes
  import opened Responses

  /** Identifies a caller-supplied ReadableByteChannel. */
  type ChannelId = nat

  const DefaultContentType: string := "application/octet-stream"

  /** How the header packet frames the body: with a content length, or with
      none at all. A chunked request gets NoLength; its packet carries no
      chunked marking of its own. */
  datatype Framing = ContentLength(length: int) | NoLength

  /** The HttpRequestPacket built on the first write of a request. */
  datatype Packet = Packet(
    httpMethod: Method,
    uri: string,
    headers: Headers,
    contentType: Option<string>,
    framing: Framing)

  /** What getReadableByteChannel hands out: the stored channel, or a fresh
      BufferReadableByteChannel over the body. */
  datatype ReadSource = StoredChannel(channel: ChannelId) | BodyReader(data: Bytes)

  datatype Request = Request(
    url: Url,
    clientHost: string,
    clientPort: int,
    httpMethod: Method,
    contentType: Option<string>,
    contentLength: Option<int>,
    headers: Headers,
    body: Option<Bytes>,
    readable: Option<ChannelId>,
    response: Response,
    packet: Option<Packet>,
    complete: bool,
    chunked: bool)

  /** Java's putAll of a possibly null map: null changes nothing, otherwise
      the argument's values win and the other keys are kept. */
  function MergeHeaders(own: Headers, h: Option<Headers>): (m: Headers)
    ensures h.None? ==> m == own
    ensures h.Some? ==> m.Keys == own.Keys + h.value.Keys
    ensures h.Some? ==> forall k :: k in h.value ==> m[k] == h.value[k]
    ensures forall k :: k in own && (h.None? || k !in h.value) ==> k in m && m[k] == own[k]
  {
    match h
    case None => own
    case Some(hs) => own + hs
  }

  /** Request(url, method): the field initialisers, a client for the URL's
      host and port, and a new Response. */
  function NewRequest(url: Url, m: Method): (r: Request)
    ensures r.httpMethod == m && r.url == url
    ensures r.clientHost == url.host && r.clientPort == url.port
    ensures r.contentType == Some(DefaultContentType)
    ensures r.contentLength == Some(0)
    ensures r.headers == map[] && r.body.None? && r.readable.None?
    ensures !r.complete && !r.chunked && r.packet.None?
    ensures r.response == NewResponse()
  {
    Request(url, url.host, url.port, m, Some(DefaultContentType), Some(0),
            map[], None, None, NewResponse(), None, false, false)
  }

  /** Request(url, method, headers) */
  function NewRequestWithHeaders(url: Url, m: Method, headers: Option<Headers>): (r: Request)
    ensures r == NewRequest(url, m).(headers := MergeHeaders(map[], headers))
  {
    SetHeaders(NewRequest(url, m), headers)
  }

  /** Request(url, method, headers, body, contentType): the content length is
      the body's remaining length and the given content type replaces the
      default, even when it is null. */
  function NewRequestWithBody(url: Url, m: Method, headers: Option<Headers>,
                              body: Bytes, contentType: Option<string>): (r: Request)
    ensures r.body == Some(body)
    ensures r.contentType == contentType
    ensures r.contentLength == Some(|body|)
    ensures GetContentLength(r) == |body|
    ensures r.headers == MergeHeaders(map[], headers)
    ensures r.response == NewResponse() && r.packet.None? && !r.complete && !r.chunked
    ensures r.httpMethod == m && r.url == url && r.readable.None?
    ensures r.clientHost == url.host && r.clientPort == url.port
    ensures r == NewRequestWithHeaders(url, m, headers).(body := Some(body), contentType := contentType,
                                                          contentLength := Some(|body|))
  {
    SetHeaders(NewRequest(url, m), headers).(body := Some(body), contentType := contentType,
                                                   contentLength := Some(|body|))
  }

  /** setHeaders */
  function SetHeaders(r: Request, h: Option<Headers>): (r': Request)
    ensures r' == r.(headers := MergeHeaders(r.headers, h))
  {
    r.(headers := MergeHeaders(r.headers, h))
  }

  /** getContentLength: the stored length when set, else the body's
      remaining length, else -1. */
  function GetContentLength(r: Request): (n: int)
    ensures r.contentLength.Some? ==> n == r.contentLength.value
    ensures r.contentLength.None? && r.body.Some? ==> n == |r.body.value|
    ensures r.contentLength.None? && r.body.None? ==> n == -1
  {
    match r.contentLength
    case Some(len) => len
    case None => if r.body.Some? then |r.body.value| else -1
  }

  /** getReadableByteChannel */
  function GetReadableChannel(r: Request): (c: Option<ReadSource>)
    ensures r.readable.Some? ==> c == Some(StoredChannel(r.readable.value))
    ensures r.readable.None? && r.body.Some? ==> c == Some(BodyReader(r.body.value))
    ensures r.readable.None? && r.body.None? ==> c.None?
  {
    if r.readable.None? && r.body.Some? then Some(BodyReader(r.body.value))
    else if r.readable.Some? then Some(StoredChannel(r.readable.value))
    else None
  }

  function SetBody(r: Request, body: Option<Bytes>): Request
  {
    r.(body := body)
  }

  function SetContentLength(r: Request, len: Option<int>): Request
  {
    r.(contentLength := len)
  }

  function SetContentType(r: Request, contentType: Option<string>): Request
  {
    r.(contentType := contentType)
  }

  function SetComplete(r: Request, complete: bool): Request
  {
    r.(complete := complete)
  }

  function SetChunked(r: Request, chunked: bool): Request
  {
    r.(chunked := chunked)
  }

  function SetReadableChannel(r: Request, c: Option<ChannelId>): Request
  {
    r.(readable := c)
  }

  /** A body set on a request built without one does not reach the content
      length: the stored 0 still wins until the length is cleared to null,
      after which the body's length is reported. */
  lemma SetBodyKeepsStoredLength(url: Url, m: Method, body: Bytes)
    ensures GetContentLength(SetBody(NewRequest(url, m), Some(body))) == 0
    ensures GetContentLength(SetContentLength(SetBody(NewRequest(url, m), Some(body)), None)) == |body|
    ensures GetContentLength(SetContentLength(NewRequest(url, m), None)) == -1
  {
  }

  /** What the setters store is what the getters read back: a stored
      length wins, a cleared one falls back to the body, a stored channel
      wins, and a body without one is wrapped in a reader. Setting a body
      keeps the request's one Response. */
  lemma SettersReadBack(r: Request, b: Bytes, n: int, ch: ChannelId)
    ensures GetContentLength(SetContentLength(r, Some(n))) == n
    ensures r.body.Some? ==> GetContentLength(SetContentLength(r, None)) == |r.body.value|
    ensures GetReadableChannel(SetReadableChannel(r, Some(ch))) == Some(StoredChannel(ch))
    ensures r.readable.None? ==> GetReadableChannel(SetBody(r, Some(b))) == Some(BodyReader(b))
    ensures SetBody(r, Some(b)).response == r.response
  {
  }
}

=== FILE: request_response_filter.dfy ===
/** The RequestResponseFilter of one connection. On the write side it frames
    each request (header packet once, then body chunks, then a trailer) and
    pushes it onto the pending stack the first time it is written; on the
    read side it picks the request an inbound frame belongs to, copies the
    frame into that request's Response, and pops the stack on the last
    frame. The pending collection is a java.util.Stack: the request a frame
    is matched with is the most recently pushed one. */
module Correlation {
  import opened HttpTypes
  import opened Responses
  import opened Requests

  /** A request's position in the connection's request store. */
  type RequestId = nat

  /** A message the filter passes down the chain on a write. */
  datatype Wire = Header(packet: Packet) | Content(data: Bytes) | Trailer

  /** One inbound HttpContent: its response header's status, reason phrase
      and headers, its content (None when null) and its last flag. */
  datatype Frame = Frame(status: int, reason: string, headers: Headers, content: Option<Bytes>, isLast: bool)

  /** The requests written through the connection, the pending stack (its top
      is the last element), the request cached in the context attribute, and
      everything written down the chain so far. */
  datatype Conn = Conn(requests: seq<Request>, pending: seq<RequestId>, cached: Option<RequestId>, wire: seq<Wire>)

  /** The statuses that fail the Response's future. */
  const FailureStatuses: set<int> := {400, 403, 404, 500}

  /** Every stacked or cached id names a stored request, a cached request
      was taken from a stack that has not been popped since, and every
      Response keeps its content-length invariant. */
  predicate WellFormed(c: Conn)
  {
    && (forall i :: 0 <= i < |c.pending| ==> c.pending[i] < |c.requests|)
    && (c.cached.Some? ==> c.cached.value < |c.requests| && |c.pending| > 0)
    && (forall i :: 0 <= i < |c.requests| ==> Responses.Valid(c.requests[i].response))
  }

  /** A connection over freshly built requests, before any read or write. */
  function NewConn(requests: seq<Request>): (c: Conn)
    requires forall i :: 0 <= i < |requests| ==> Responses.Valid(requests[i].response)
    ensures WellFormed(c) && c.pending == [] && c.cached.None? && c.wire == []
  {
    Conn(requests, [], None, [])
  }

  /** The request an inbound frame is matched with: the cached one, else the
      top of the stack; none when both are missing. */
  function SelectTarget(c: Conn): (t: Option<RequestId>)
    ensures c.cached.Some? ==> t == c.cached
    ensures c.cached.None? && |c.pending| > 0 ==> t == Some(Last(c.pending))
    ensures c.cached.None? && |c.pending| == 0 ==> t.None?
  {
    if c.cached.Some? then c.cached
    else if |c.pending| > 0 then Some(Last(c.pending))
    else None
  }

  predicate IsSuccessStatus(status: int)
  {
    200 <= status < 300
  }

  /** What one inbound frame does to the target's Response: status and
      headers are copied; a 2xx frame with content feeds addContent, whose
      last chunk resolves the future and runs the success callbacks; a
      failure status fails the future; any other frame changes nothing
      else. */
  function ApplyFrame(resp: Response, f: Frame): (r': Response)
    requires Responses.Valid(resp)
    ensures Responses.Valid(r')
    ensures r'.status == f.status
    ensures r'.headers == resp.headers + f.headers
    ensures r'.sink == resp.sink && r'.contentType == resp.contentType
    ensures f.content.Some? && IsSuccessStatus(f.status) ==>
              r'.contentLength == resp.contentLength + |f.content.value|
    ensures f.content.Some? && IsSuccessStatus(f.status) && resp.sink.None? ==>
              r'.body == resp.body + [f.content.value]
    ensures f.content.Some? && IsSuccessStatus(f.status) && resp.sink.None? && !f.isLast ==>
              r'.future == resp.future && r'.events == resp.events && r'.callbacks == resp.callbacks
    ensures f.content.Some? && IsSuccessStatus(f.status) && resp.sink.None? && f.isLast
            && resp.future.Pending? && resp.contentLength == TotalLength(resp.body) ==>
              var all := resp.body + [f.content.value];
              r'.future == if TotalLength(all) > 0 then Done(Some(Concat(all))) else Done(None)
    ensures f.content.Some? && IsSuccessStatus(f.status) && resp.sink.None? && f.isLast
            && resp.future.Pending? ==>
              && r'.future.Done?
              && r'.events == resp.events + SuccessCalls(resp.callbacks, r'.headers, r'.future.result)
              && r'.callbacks == DropWatches(resp.callbacks)
    ensures f.content.Some? && IsSuccessStatus(f.status) && resp.sink.Some? ==>
              r'.body == resp.body && r'.future == resp.future && r'.callbacks == resp.callbacks
              && r'.events == resp.events + [SinkWrite(resp.sink.value, f.content.value)]
    ensures !(f.content.Some? && IsSuccessStatus(f.status)) && f.status in FailureStatuses ==>
              r'.future == (if resp.future.Pending? then Failed(HttpError(f.reason, f.status)) else resp.future)
              && r'.events == resp.events + FailureCalls(resp.callbacks, r'.headers, HttpError(f.reason, f.status))
              && r'.body == resp.body && r'.callbacks == resp.callbacks
              && r'.contentLength == resp.contentLength
    ensures !(f.content.Some? && IsSuccessStatus(f.status)) && f.status !in FailureStatuses ==>
              r' == resp.(status := f.status, headers := resp.headers + f.headers)
  {
    var copied := resp.(status := f.status, headers := resp.headers + f.headers);
    if f.content.Some? && IsSuccessStatus(f.status) then AddChunk(copied, f.content.value, f.isLast)
    else if f.status in FailureStatuses then Fail(copied, HttpError(f.reason, f.status))
    else copied
  }

  /** handleRead. With nothing cached and an empty stack the frame has no
      request and an IllegalStateException carries its reason phrase. A
      last frame pops the stack top (whichever request that is) and clears
      the cache; any other frame caches the target. */
  function HandleRead(c: Conn, f: Frame): (r: Result<Conn, JavaException>)
    requires WellFormed(c)
    ensures r.Err? <==> c.cached.None? && |c.pending| == 0
    ensures r.Err? ==> r.error == IllegalState(f.reason)
    ensures r.Ok? ==> WellFormed(r.value) && |r.value.requests| == |c.requests| && r.value.wire == c.wire
    ensures r.Ok? ==>
              var t := SelectTarget(c).value;
              && r.value.requests == c.requests[t := r.value.requests[t]]
              && r.value.requests[t] == c.requests[t].(response := ApplyFrame(c.requests[t].response, f))
              && (f.isLast ==> r.value.pending == DropLast(c.pending) && r.value.cached.None?)
              && (!f.isLast ==> r.value.pending == c.pending && r.value.cached == Some(t))
  {
    match SelectTarget(c)
    case None => Err(IllegalState(f.reason))
    case Some(t) =>
      var req := c.requests[t];
      var requests := c.requests[t := req.(response := ApplyFrame(req.response, f))];
      if f.isLast then Ok(c.(requests := requests, pending := DropLast(c.pending), cached := None))
      else Ok(c.(requests := requests, cached := Some(t)))
  }

  /** Frames read one after another; the first exception stops the run. */
  function ReadAll(c: Conn, fs: seq<Frame>): (r: Result<Conn, JavaException>)
    requires WellFormed(c)
    ensures r.Ok? ==> WellFormed(r.value) && |r.value.requests| == |c.requests|
    decreases |fs|
  {
    if |fs| == 0 then Ok(c)
    else
      match HandleRead(c, fs[0])
      case Err(e) => Err(e)
      case Ok(c') => ReadAll(c', fs[1..])
  }

  /** A run of frames is its first frame's read followed by the rest. */
  lemma ReadAllStep(c: Conn, f: Frame, fs: seq<Frame>)
    requires WellFormed(c) && HandleRead(c, f).Ok?
    ensures ReadAll(c, [f] + fs) == ReadAll(HandleRead(c, f).value, fs)
  {
  }

  /** The requests a run of frames is matched with, in frame order. */
  function Targets(c: Conn, fs: seq<Frame>): seq<RequestId>
    requires WellFormed(c)
    decreases |fs|
  {
    if |fs| == 0 then []
    else
      match HandleRead(c, fs[0])
      case Err(_) => []
      case Ok(c') => [SelectTarget(c).value] + Targets(c', fs[1..])
  }

  /** The top `n` entries of a stack, read from the top down. */
  function TopDown(p: seq<RequestId>, n: nat): (r: seq<RequestId>)
    requires n <= |p|
    ensures |r| == n
    ensures forall k :: 0 <= k < n ==> r[k] == p[|p| - 1 - k]
  {
    if n == 0 then [] else [Last(p)] + TopDown(DropLast(p), n - 1)
  }

  /** Responses that each arrive as one last frame are matched with the
      pending requests newest first: the k-th goes to the k-th request from
      the top of the stack, not the k-th one written. */
  lemma {:induction false} SingleFrameResponsesMatchNewestFirst(c: Conn, fs: seq<Frame>)
    requires WellFormed(c) && c.cached.None? && |fs| <= |c.pending|
    requires forall k :: 0 <= k < |fs| ==> fs[k].isLast
    ensures Targets(c, fs) == TopDown(c.pending, |fs|)
    decreases |fs|
  {
    if |fs| > 0 {
      var r := HandleRead(c, fs[0]);
      assert r.Ok? && r.value.pending == DropLast(c.pending) && r.value.cached.None?;
      var rest := fs[1..];
      assert forall k :: 0 <= k < |rest| ==> rest[k] == fs[k + 1];
      SingleFrameResponsesMatchNewestFirst(r.value, rest);
    }
  }

  /** A read with a cached request does not consult the stack, and a read
      with nothing cached that follows the first write of a request is
      matched with that request, however many requests were pending before. */
  lemma ReadFollowsLatestWrite(c: Conn, id: RequestId, f: Frame)
    requires WellFormed(c) && id < |c.requests| && c.requests[id].packet.None? && c.cached.None?
    ensures var w := HandleWrite(c, id);
            && SelectTarget(w) == Some(id)
            && HandleRead(w, f).Ok?
            && HandleRead(w, f).value.requests[id].response.status == f.status
  {
  }

  /** The target path: the URL's path, with "?" and the query appended when
      the URL has one. */
  function Uri(url: Url): (u: string)
    ensures url.query.None? ==> u == url.path
    ensures url.query.Some? ==> u == url.path + "?" + url.query.value
  {
    if url.query.Some? then url.path + "?" + url.query.value else url.path
  }

  /** GET, HEAD and DELETE requests are complete as soon as they start. */
  predicate Bodiless(m: Method)
  {
    m == GET || m == HEAD || m == DELETE
  }

  /** The header packet built from the request as it stands on its first
      write: its custom headers are copied before any Transfer-Encoding
      entry is added, and only a non-chunked request gets a content length. */
  function BuildPacket(r: Request): Packet
  {
    Packet(r.httpMethod, Uri(r.url), r.headers, r.contentType,
           if r.chunked then NoLength else ContentLength(GetContentLength(r)))
  }

  /** The request after its first write's bookkeeping. */
  function StartRequest(r: Request): Request
  {
    r.(complete := r.complete || Bodiless(r.httpMethod),
       headers := if r.chunked then r.headers["Transfer-Encoding" := "chunked"] else r.headers,
       packet := Some(BuildPacket(r)))
  }

  /** handleWrite of request `id`. A request with no packet yet gets one, is
      pushed onto the pending stack and its header goes out first. Then a
      body, if set, goes out once and is cleared; then a complete request
      gets a trailer, on this and on every later write. */
  function HandleWrite(c: Conn, id: RequestId): (c': Conn)
    requires WellFormed(c) && id < |c.requests|
    ensures WellFormed(c') && |c'.requests| == |c.requests| && c'.cached == c.cached
    ensures c'.requests == c.requests[id := c'.requests[id]]
    ensures c.requests[id].packet.None? ==> c'.pending == c.pending + [id]
    ensures c.requests[id].packet.Some? ==>
              c'.pending == c.pending && c'.requests[id].packet == c.requests[id].packet
    ensures c'.requests[id].packet.Some? && c'.requests[id].body.None?
    ensures c'.requests[id].response == c.requests[id].response
    ensures c'.requests[id].httpMethod == c.requests[id].httpMethod
    ensures var r, r' := c.requests[id], c'.requests[id];
            && r'.url == r.url && r'.clientHost == r.clientHost && r'.clientPort == r.clientPort
            && r'.contentType == r.contentType && r'.contentLength == r.contentLength
            && r'.readable == r.readable && r'.chunked == r.chunked
    ensures c.requests[id].packet.Some? || !c.requests[id].chunked ==>
              c'.requests[id].headers == c.requests[id].headers
    ensures c'.requests[id].complete ==
              (c.requests[id].complete || (c.requests[id].packet.None? && Bodiless(c.requests[id].httpMethod)))
    ensures |c'.wire| >= |c.wire| && c'.wire[..|c.wire|] == c.wire
  {
    var r0 := c.requests[id];
    var isNew := r0.packet.None?;
    var r1 := if isNew then StartRequest(r0) else r0;
    var header := if isNew then [Header(r1.packet.value)] else [];
    var content := if r1.body.Some? then [Content(r1.body.value)] else [];
    var trailer := if r1.complete then [Trailer] else [];
    c.(requests := c.requests[id := r1.(body := None)],
       pending := if isNew then c.pending + [id] else c.pending,
       wire := c.wire + header + content + trailer)
  }

  /** What one write sends, in order: the header when the request is new,
      one Content message exactly when a body was set, and a trailer exactly
      when the request is complete after the write. */
  lemma WriteEmitsInOrder(c: Conn, id: RequestId)
    requires WellFormed(c) && id < |c.requests|
    ensures var c' := HandleWrite(c, id);
            var out := c'.wire[|c.wire|..];
            var isNew := c.requests[id].packet.None?;
            var body := c.requests[id].body;
            && c'.wire == c.wire + out
            && |out| == (if isNew then 1 else 0) + (if body.Some? then 1 else 0)
                        + (if c'.requests[id].complete then 1 else 0)
            && (isNew <==> |out| > 0 && out[0].Header?)
            && (isNew ==> out[0] == Header(c'.requests[id].packet.value))
            && (body.Some? ==> out[if isNew then 1 else 0] == Content(body.value))
            && (c'.requests[id].complete <==> |out| > 0 && Last(out) == Trailer)
  {
  }

  /** The header packet of a first write: method, the URI built from path
      and query, the request's own custom headers and content type, and a
      content length unless the request is chunked. A chunked request gets
      "Transfer-Encoding: chunked" in its own header map only, after the
      packet's headers were copied. */
  lemma FirstWritePacket(c: Conn, id: RequestId)
    requires WellFormed(c) && id < |c.requests| && c.requests[id].packet.None?
    ensures var r := c.requests[id];
            var r' := HandleWrite(c, id).requests[id];
            var p := r'.packet.value;
            && p.httpMethod == r.httpMethod
            && (r.url.query.None? ==> p.uri == r.url.path)
            && (r.url.query.Some? ==> p.uri == r.url.path + "?" + r.url.query.value)
            && p.headers == r.headers
            && p.contentType == r.contentType
            && (r.chunked ==> p.framing == NoLength
                              && r'.headers == r.headers["Transfer-Encoding" := "chunked"])
            && (!r.chunked ==> p.framing == ContentLength(GetContentLength(r)) && r'.headers == r.headers)
  {
  }

  /** The fields set before a first write shape its packet: setChunked(true)
      leaves it without a content length, a stored length on a non-chunked
      request is its length, and setContentType gives its content type. */
  lemma SettersShapeFirstWrite(c: Conn, id: RequestId, n: int, ct: Option<string>)
    requires WellFormed(c) && id < |c.requests| && c.requests[id].packet.None?
    ensures var r := c.requests[id];
            var chunked := c.(requests := c.requests[id := SetChunked(r, true)]);
            var sized := c.(requests := c.requests[id := SetContentLength(SetChunked(r, false), Some(n))]);
            var typed := c.(requests := c.requests[id := SetContentType(r, ct)]);
            && WellFormed(chunked) && WellFormed(sized) && WellFormed(typed)
            && HandleWrite(chunked, id).requests[id].packet.value.framing == NoLength
            && HandleWrite(sized, id).requests[id].packet.value.framing == ContentLength(n)
            && HandleWrite(typed, id).requests[id].packet.value.contentType == ct
  {
  }

  /** A request marked complete ends every write, first or later, with a
      trailer. */
  lemma CompleteEndsWithTrailer(c: Conn, id: RequestId)
    requires WellFormed(c) && id < |c.requests|
    ensures var done := c.(requests := c.requests[id := SetComplete(c.requests[id], true)]);
            var c' := HandleWrite(done, id);
            && WellFormed(done)
            && |c'.wire| > |c.wire| && Last(c'.wire) == Trailer
  {
  }

  /** Writing the same request again never pushes it again, never resends
      its header, and sends a trailer again when it is complete. */
  lemma RewriteNeverPushes(c: Conn, id: RequestId)
    requires WellFormed(c) && id < |c.requests|
    ensures var c1 := HandleWrite(c, id);
            var c2 := HandleWrite(c1, id);
            && c2.pending == c1.pending
            && c2.requests[id].packet == c1.requests[id].packet
            && c2.requests[id].complete == c1.requests[id].complete
            && c2.wire == c1.wire + (if c1.requests[id].complete then [Trailer] else [])
  {
  }

  /** A DELETE without a body is complete on its first write, which sends
      its header and a trailer and no content. */
  lemma DeleteSendsHeaderAndTrailer(c: Conn, id: RequestId)
    requires WellFormed(c) && id < |c.requests|
    requires c.requests[id].packet.None? && c.requests[id].body.None?
    requires c.requests[id].httpMethod == DELETE
    ensures var c' := HandleWrite(c, id);
            && c'.requests[id].complete
            && c'.wire == c.wire + [Header(c'.requests[id].packet.value), Trailer]
  {
  }

  /** Requests written one after another, in order. */
  function WriteAll(c: Conn, ids: seq<RequestId>): (c': Conn)
    requires WellFormed(c) && forall k :: 0 <= k < |ids| ==> ids[k] < |c.requests|
    ensures WellFormed(c') && |c'.requests| == |c.requests| && c'.cached == c.cached
  {
    if |ids| == 0 then c else HandleWrite(WriteAll(c, DropLast(ids)), Last(ids))
  }

  /** A run of writes is the writes before the last one, then the last. */
  lemma WriteAllStep(c: Conn, ids: seq<RequestId>, id: RequestId)
    requires WellFormed(c) && id < |c.requests| && forall k :: 0 <= k < |ids| ==> ids[k] < |c.requests|
    ensures WriteAll(c, ids + [id]) == HandleWrite(WriteAll(c, ids), id)
  {
  }

  /** Writes leave every request they do not name as it was. */
  lemma {:induction false} WriteAllLeavesOthers(c: Conn, ids: seq<RequestId>, i: nat)
    requires WellFormed(c) && forall k :: 0 <= k < |ids| ==> ids[k] < |c.requests|
    requires i < |c.requests| && i !in ids
    ensures WriteAll(c, ids).requests[i] == c.requests[i]
  {
    if |ids| > 0 {
      assert DropLast(ids) + [Last(ids)] == ids;
      WriteAllLeavesOthers(c, DropLast(ids), i);
    }
  }

  /** Every request written has a header packet afterwards. */
  lemma {:induction false} WriteAllBuildsPackets(c: Conn, ids: seq<RequestId>, k: nat)
    requires WellFormed(c) && forall k :: 0 <= k < |ids| ==> ids[k] < |c.requests|
    requires k < |ids|
    ensures WriteAll(c, ids).requests[ids[k]].packet.Some?
  {
    var front := DropLast(ids);
    if k < |front| {
      WriteAllBuildsPackets(c, front, k);
    }
  }

  /** Distinct requests written for the first time are stacked in the order
      they were written, so the last one written ends up on top. */
  lemma {:induction false} WriteAllStacksInOrder(c: Conn, ids: seq<RequestId>)
    requires WellFormed(c) && forall k :: 0 <= k < |ids| ==> ids[k] < |c.requests|
    requires forall k :: 0 <= k < |ids| ==> c.requests[ids[k]].packet.None?
    requires forall j, k :: 0 <= j < k < |ids| ==> ids[j] != ids[k]
    ensures WriteAll(c, ids).pending == c.pending + ids
  {
    if |ids| > 0 {
      var front, id := DropLast(ids), Last(ids);
      assert front + [id] == ids;
      WriteAllStacksInOrder(c, front);
      WriteAllLeavesOthers(c, front, id);
    }
  }

  /** The first request written on a fresh connection sits under the second
      one on the stack, and neither Response has been touched. */
  lemma TwoWritesStacked(c0: Conn)
    requires WellFormed(c0) && |c0.requests| == 2 && c0.pending == [] && c0.cached.None?
    requires c0.requests[0].packet.None? && c0.requests[1].packet.None?
    ensures var c := WriteAll(c0, [0, 1]);
            && c.pending == [0, 1] && c.cached.None?
            && c.requests[0].response == c0.requests[0].response
            && c.requests[1].response == c0.requests[1].response
  {
    WriteAllStep(c0, [], 0);
    assert [] + [0] == [0];
    var w1 := HandleWrite(c0, 0);
    assert w1.pending == [0] && w1.requests[1] == c0.requests[1];
    WriteAllStep(c0, [0], 1);
    assert [0] + [1] == [0, 1];
    var w2 := HandleWrite(w1, 1);
    assert w2.requests[0] == w1.requests[0];
  }

  /** A fresh Response answered by a 200 frame without content and then a
      last 200 frame carrying `d` holds `d`; so does one answered by the last
      frame alone. */
  lemma FreshResponseAnswered(d: Bytes)
    requires |d| > 0
    ensures GetContent(ApplyFrame(ApplyFrame(NewResponse(), Frame(200, "OK", map[], None, false)),
                                  Frame(200, "OK", map[], Some(d), true))) == Some(d)
    ensures GetContent(ApplyFrame(NewResponse(), Frame(200, "OK", map[], Some(d), true))) == Some(d)
  {
    var r1 := ApplyFrame(NewResponse(), Frame(200, "OK", map[], None, false));
    assert r1 == NewResponse().(status := 200);
    WholeBodyInOneChunk(r1.(status := 200), d);
    WholeBodyInOneChunk(NewResponse().(status := 200), d);
  }

  /** One read against a connection with nothing cached and `x` beneath `y`
      on the stack: it is matched with `y`, and `x` is left alone. */
  lemma ReadAgainstTwoStacked(c: Conn, x: RequestId, y: RequestId, f: Frame)
    requires WellFormed(c) && c.pending == [x, y] && c.cached.None? && x != y
    requires x < |c.requests| && y < |c.requests|
    ensures var c' := HandleRead(c, f).value;
            && HandleRead(c, f).Ok?
            && c'.requests[y].response == ApplyFrame(c.requests[y].response, f)
            && c'.requests[x] == c.requests[x]
            && (f.isLast ==> c'.pending == [x] && c'.cached.None?)
            && (!f.isLast ==> c'.pending == [x, y] && c'.cached == Some(y))
  {
  }

  /** Two responses read while two requests are stacked: the first response
      (a frame without content, then a last frame with `first`) goes to the
      request on top, the second response (`second`) to the one beneath. */
  lemma TwoResponsesAgainstTwoStacked(c: Conn, x: RequestId, y: RequestId, first: Bytes, second: Bytes)
    requires WellFormed(c) && c.pending == [x, y] && c.cached.None? && x != y
    requires x < |c.requests| && y < |c.requests|
    requires c.requests[x].response == NewResponse() && c.requests[y].response == NewResponse()
    requires |first| > 0 && |second| > 0
    ensures var r := ReadAll(c, [Frame(200, "OK", map[], None, false),
                                 Frame(200, "OK", map[], Some(first), true),
                                 Frame(200, "OK", map[], Some(second), true)]);
            && r.Ok?
            && GetContent(r.value.requests[y].response) == Some(first)
            && GetContent(r.value.requests[x].response) == Some(second)
            && r.value.pending == []
  {
    var f1 := Frame(200, "OK", map[], None, false);
    var f2 := Frame(200, "OK", map[], Some(first), true);
    var f3 := Frame(200, "OK", map[], Some(second), true);
    ReadAgainstTwoStacked(c, x, y, f1);
    var c1 := HandleRead(c, f1).value;
    var c2 := HandleRead(c1, f2).value;
    assert c2.requests[x] == c.requests[x] && c2.pending == [x] && c2.cached.None?;
    var c3 := HandleRead(c2, f3).value;
    assert c3.requests[y] == c2.requests[y];
    FreshResponseAnswered(first);
    FreshResponseAnswered(second);
    ReadAllStep(c2, f3, []);
    ReadAllStep(c1, f2, [f3]);
    ReadAllStep(c, f1, [f2, f3]);
  }

  /** Two GETs pipelined on one connection and answered in the order they
      were sent: the first response ("AB", after a frame without content)
      lands in the second request's Response, and the second response ("Z")
      in the first request's. */
  lemma PipelinedGetsAnsweredInReverse(a: Url, b: Url)
    ensures var c := WriteAll(NewConn([NewRequest(a, GET), NewRequest(b, GET)]), [0, 1]);
            var r := ReadAll(c, [Frame(200, "OK", map[], None, false),
                                 Frame(200, "OK", map[], Some([65, 66]), true),
                                 Frame(200, "OK", map[], Some([90]), true)]);
            && r.Ok?
            && GetContent(r.value.requests[1].response) == Some([65, 66])
            && GetContent(r.value.requests[0].response) == Some([90])
  {
    var c0 := NewConn([NewRequest(a, GET), NewRequest(b, GET)]);
    TwoWritesStacked(c0);
    TwoResponsesAgainstTwoStacked(WriteAll(c0, [0, 1]), 0, 1, [65, 66], [90]);
  }
}

=== FILE: response.dfy ===
/** The Response of one request: status and headers copied from the
    server's frames, a body that is either buffered or forwarded to an
    attached sink, a future resolved by the last chunk or by an error
    status, and the callbacks fanned out on resolution. Every sink write
    and callback invocation is recorded in `events`, in order. */
module Responses {
  import opened HttpTypes

  /** Identifies a caller-supplied WritableByteChannel. */
  type SinkId = nat

  /** The future's state. A resolved future is never resolved again: the
      first resolution wins. */
  datatype Future = Pending | Done(result: Option<Bytes>) | Failed(error: HttpError)

  /** A ResponseCallback, identified by `id`, with its isWatch flag. */
  datatype Callback = Callback(id: nat, isWatch: bool)

  /** One observable effect: a write into a sink, or a callback invocation. */
  datatype Event =
    | SinkWrite(sink: SinkId, data: Bytes)
    | CalledSuccess(callback: Callback, headers: Headers, result: Option<Bytes>)
    | CalledFailure(callback: Callback, headers: Headers, error: HttpError)

  datatype Response = Response(
    status: int,
    headers: Headers,
    contentType: Option<string>,
    contentLength: int,
    body: seq<Bytes>,
    sink: Option<SinkId>,
    future: Future,
    callbacks: seq<Callback>,
    events: seq<Event>)

  /** The running content length covers at least the buffered chunks; it
      covers more only once a sink has received chunks of its own. */
  predicate Valid(r: Response)
  {
    r.contentLength >= TotalLength(r.body)
  }

  /** The Response every Request constructor creates for itself. */
  function NewResponse(): (r: Response)
    ensures Valid(r) && r.future == Pending
    ensures r.status == 0 && r.headers == map[] && r.contentType.None?
    ensures r.contentLength == 0 && r.body == [] && r.sink.None?
    ensures r.callbacks == [] && r.events == []
  {
    Response(0, map[], None, 0, [], None, Pending, [], [])
  }

  /** What the future's getResult reports: the payload when resolved with
      success, null otherwise. */
  function ResultOf(f: Future): Option<Bytes>
  {
    if f.Done? then f.result else None
  }

  /** setHeaders(headers): putAll, so the argument's values win; putAll
      of a null map throws NullPointerException. */
  function SetHeaders(r: Response, h: Option<Headers>): (res: Result<Response, JavaException>)
    ensures h.None? <==> res == Err(NullPointer)
    ensures res.Ok? ==> res.value.headers.Keys == r.headers.Keys + h.value.Keys
    ensures res.Ok? ==> forall k :: k in h.value ==> res.value.headers[k] == h.value[k]
    ensures res.Ok? ==> forall k :: k in r.headers && k !in h.value ==> res.value.headers[k] == r.headers[k]
    ensures res.Ok? ==> res.value == r.(headers := res.value.headers)
  {
    if h.None? then Err(NullPointer) else Ok(r.(headers := r.headers + h.value))
  }

  /** setHeaders(headers, overwrite) with a non-null map: overwrite makes
      the argument the header map, otherwise it is merged as above. */
  function SetHeadersOverwrite(r: Response, h: Headers, overwrite: bool): (r': Response)
    ensures overwrite ==> r' == r.(headers := h)
    ensures !overwrite ==> Ok(r') == SetHeaders(r, Some(h))
  {
    if overwrite then r.(headers := h) else SetHeaders(r, Some(h)).value
  }

  /** getContent: the payload's bytes once the future holds one, else null. */
  function GetContent(r: Response): (c: Option<Bytes>)
    ensures c.Some? <==> r.future.Done? && r.future.result.Some?
    ensures c.Some? ==> c.value == r.future.result.value
  {
    if r.future.Done? && r.future.result.Some? then r.future.result else None
  }

  /** One success invocation per callback, in registration order. */
  function SuccessCalls(cbs: seq<Callback>, headers: Headers, v: Option<Bytes>): (es: seq<Event>)
    ensures |es| == |cbs|
    ensures forall i :: 0 <= i < |cbs| ==> es[i] == CalledSuccess(cbs[i], headers, v)
  {
    seq(|cbs|, i requires 0 <= i < |cbs| => CalledSuccess(cbs[i], headers, v))
  }

  /** One failure invocation per callback, in registration order. */
  function FailureCalls(cbs: seq<Callback>, headers: Headers, e: HttpError): (es: seq<Event>)
    ensures |es| == |cbs|
    ensures forall i :: 0 <= i < |cbs| ==> es[i] == CalledFailure(cbs[i], headers, e)
  {
    seq(|cbs|, i requires 0 <= i < |cbs| => CalledFailure(cbs[i], headers, e))
  }

  /** The callbacks left after the success hook has removed every callback
      whose isWatch() is true. */
  function DropWatches(cbs: seq<Callback>): (kept: seq<Callback>)
    ensures forall c :: c in kept <==> c in cbs && !c.isWatch
    ensures forall c: Callback :: !c.isWatch ==> multiset(kept)[c] == multiset(cbs)[c]
  {
    if |cbs| == 0 then []
    else
      assert cbs == DropLast(cbs) + [Last(cbs)];
      if Last(cbs).isWatch then DropWatches(DropLast(cbs))
    else DropWatches(DropLast(cbs)) + [Last(cbs)]
  }

  /** The callbacks a single callback contributes to DropWatches. */
  function KeptOf(cb: Callback): seq<Callback>
  {
    if cb.isWatch then [] else [cb]
  }

  /** One step of DropWatches: the kept prefix, then what the last callback
      contributes. */
  lemma DropWatchesLast(cbs: seq<Callback>)
    requires |cbs| > 0
    ensures DropWatches(cbs) == DropWatches(DropLast(cbs)) + KeptOf(Last(cbs))
  {
  }

  /** DropWatches is an order-keeping filter: it distributes over
      concatenation and keeps a single callback exactly when it is not a
      watch, so the survivors stay in registration order. */
  lemma {:induction false} DropWatchesKeepsOrder(a: seq<Callback>, b: seq<Callback>, cb: Callback)
    ensures DropWatches(a + b) == DropWatches(a) + DropWatches(b)
    ensures DropWatches([cb]) == KeptOf(cb)
    decreases |b|
  {
    DropWatchesLast([cb]);
    assert DropLast([cb]) == [];
    if |b| == 0 {
      assert a + b == a;
    } else {
      DropWatchesLast(a + b);
      DropWatchesLast(b);
      LastOfAppend(a, b);
      DropWatchesKeepsOrder(a, DropLast(b), cb);
      var x, y, z := DropWatches(a), DropWatches(DropLast(b)), KeptOf(Last(b));
      assert DropWatches(a + b) == (x + y) + z;
      AppendAssoc(x, y, z);
    }
  }

  /** The future's success hook (`done`): on a pending future, resolve it
      with `v`, call every callback's success in order, then drop the
      watches. A resolved future ignores a second result. */
  function Resolve(r: Response, v: Option<Bytes>): (r': Response)
    ensures r.future.Pending? ==> r'.future == Done(v)
    ensures r.future.Pending? ==> r'.events == r.events + SuccessCalls(r.callbacks, r.headers, v)
    ensures r.future.Pending? ==> r'.callbacks == DropWatches(r.callbacks)
    ensures !r.future.Pending? ==> r' == r
    ensures r' == r.(future := r'.future, events := r'.events, callbacks := r'.callbacks)
  {
    if r.future.Pending? then
      r.(future := Done(v),
         events := r.events + SuccessCalls(r.callbacks, r.headers, v),
         callbacks := DropWatches(r.callbacks))
    else r
  }

  /** The overridden `failure`: the future fails if still pending, and every
      registered callback's failure is called whatever the future's state;
      no callback is removed. */
  function Fail(r: Response, e: HttpError): (r': Response)
    ensures r'.future == if r.future.Pending? then Failed(e) else r.future
    ensures r'.events == r.events + FailureCalls(r.callbacks, r.headers, e)
    ensures r'.callbacks == r.callbacks
    ensures r' == r.(future := r'.future, events := r'.events)
  {
    r.(future := if r.future.Pending? then Failed(e) else r.future,
       events := r.events + FailureCalls(r.callbacks, r.headers, e))
  }

  /** addCallback: a resolved future calls success at once and keeps
      nothing; a pending one queues the callback at the tail. */
  function AddCallback(r: Response, cb: Callback): (r': Response)
    ensures r.future.Pending? ==> r'.callbacks == r.callbacks + [cb] && r'.events == r.events
    ensures !r.future.Pending? ==>
              r'.callbacks == r.callbacks
              && r'.events == r.events + [CalledSuccess(cb, r.headers, ResultOf(r.future))]
    ensures r' == r.(events := r'.events, callbacks := r'.callbacks)
  {
    if r.future.Pending? then r.(callbacks := r.callbacks + [cb])
    else r.(events := r.events + [CalledSuccess(cb, r.headers, ResultOf(r.future))])
  }

  /** The buffer addContent allocates with the running content length and
      fills with the buffered chunks in order. */
  function Assemble(body: seq<Bytes>, len: int): (b: Bytes)
    requires len >= TotalLength(body)
    ensures |b| == len
    ensures b[..TotalLength(body)] == Concat(body)
  {
    Concat(body) + Zeros(len - TotalLength(body))
  }

  /** The end of addContent without a sink: a last chunk resolves the
      future with the assembled body, or with null when nothing arrived. */
  function Finish(r: Response, isLast: bool): (r': Response)
    requires Valid(r)
    ensures Valid(r')
    ensures !isLast ==> r' == r
    ensures isLast && r.contentLength > 0 ==> r' == Resolve(r, Some(Assemble(r.body, r.contentLength)))
    ensures isLast && r.contentLength <= 0 ==> r' == Resolve(r, None)
  {
    if isLast && r.contentLength > 0 then Resolve(r, Some(Assemble(r.body, r.contentLength)))
    else if isLast then Resolve(r, None)
    else r
  }

  /** addContent with a non-null chunk. With a sink attached the chunk goes
      to the sink and the future is left alone, even on the last chunk;
      otherwise it is buffered, and the last chunk resolves a pending future,
      which runs every registered callback's success and drops the watches. */
  function AddChunk(r: Response, d: Bytes, isLast: bool): (r': Response)
    requires Valid(r)
    ensures Valid(r')
    ensures r'.contentLength == r.contentLength + |d|
    ensures r'.status == r.status && r'.headers == r.headers && r'.sink == r.sink
    ensures r.sink.Some? ==>
              r'.events == r.events + [SinkWrite(r.sink.value, d)]
              && r'.body == r.body && r'.future == r.future && r'.callbacks == r.callbacks
    ensures r.sink.None? ==> r'.body == r.body + [d]
    ensures r.sink.None? && !isLast ==>
              r'.future == r.future && r'.events == r.events && r'.callbacks == r.callbacks
    ensures r.sink.Some? ==>
              r' == r.(contentLength := r.contentLength + |d|, events := r.events + [SinkWrite(r.sink.value, d)])
    ensures r.sink.None? ==>
              r' == Finish(r.(body := r.body + [d], contentLength := r.contentLength + |d|), isLast)
    ensures r.sink.None? && isLast && r.future.Pending? ==>
              && r'.future.Done?
              && r'.events == r.events + SuccessCalls(r.callbacks, r.headers, r'.future.result)
              && r'.callbacks == DropWatches(r.callbacks)
    ensures r.sink.None? && isLast && r.future.Pending? && r.contentLength == TotalLength(r.body) ==>
              var all := r.body + [d];
              r'.future == if TotalLength(all) > 0 then Done(Some(Concat(all))) else Done(None)
  {
    if r.sink.Some? then
      r.(contentLength := r.contentLength + |d|, events := r.events + [SinkWrite(r.sink.value, d)])
    else
      var all := r.body + [d];
      assert all[..|all| - 1] == r.body;
      AssembleExact(all);
      Finish(r.(body := all, contentLength := r.contentLength + |d|), isLast)
  }

  /** addContent(buffer, isLast), where a null buffer is None. Handing null
      to an attached sink is a NullPointerException. */
  function AddContent(r: Response, chunk: Option<Bytes>, isLast: bool): (res: Result<Response, JavaException>)
    requires Valid(r)
    ensures res.Err? <==> chunk.None? && r.sink.Some?
    ensures res.Err? ==> res.error == NullPointer
    ensures res.Ok? ==> Valid(res.value)
    ensures chunk.Some? ==> res == Ok(AddChunk(r, chunk.value, isLast))
    ensures chunk.None? && r.sink.None? ==> res == Ok(Finish(r, isLast))
  {
    match chunk
    case Some(d) => Ok(AddChunk(r, d, isLast))
    case None => if r.sink.Some? then Err(NullPointer) else Ok(Finish(r, isLast))
  }

  /** One write into sink `s` per chunk, in order. */
  function Flush(s: SinkId, body: seq<Bytes>): (es: seq<Event>)
    ensures |es| == |body|
  {
    if |body| == 0 then [] else Flush(s, DropLast(body)) + [SinkWrite(s, Last(body))]
  }

  /** setWritableByteChannel: remember the sink; a non-null sink first
      receives every buffered chunk. The body is not cleared and the
      content length does not move. */
  function SetSink(r: Response, s: Option<SinkId>): (r': Response)
    ensures r'.sink == s
    ensures r'.body == r.body && r'.contentLength == r.contentLength && r'.future == r.future
    ensures r'.callbacks == r.callbacks && r'.headers == r.headers
    ensures s.None? ==> r'.events == r.events
    ensures s.Some? ==> r'.events == r.events + Flush(s.value, r.body)
    ensures Valid(r) ==> Valid(r')
    ensures r' == r.(sink := s, events := r'.events)
  {
    match s
    case None => r.(sink := None)
    case Some(id) => r.(sink := s, events := r.events + Flush(id, r.body))
  }

  /** The bytes sink `s` has received, in order. */
  function SinkBytes(events: seq<Event>, s: SinkId): Bytes
  {
    if |events| == 0 then []
    else
      var e := Last(events);
      SinkBytes(DropLast(events), s) + (if e.SinkWrite? && e.sink == s then e.data else [])
  }

  /** Non-last chunks delivered one after another. */
  function Deliver(r: Response, chunks: seq<Bytes>): (r': Response)
    requires Valid(r)
    ensures Valid(r')
  {
    if |chunks| == 0 then r else AddChunk(Deliver(r, DropLast(chunks)), Last(chunks), false)
  }

  /** Without a sink, chunks are kept in arrival order, the content length is
      the sum of their lengths, and nothing is resolved or called. */
  lemma {:induction false} DeliverBuffers(r: Response, chunks: seq<Bytes>)
    requires Valid(r) && r.sink.None?
    ensures Deliver(r, chunks).body == r.body + chunks
    ensures Deliver(r, chunks).contentLength == r.contentLength + TotalLength(chunks)
    ensures Deliver(r, chunks).future == r.future
    ensures Deliver(r, chunks).events == r.events && Deliver(r, chunks).callbacks == r.callbacks
    ensures Deliver(r, chunks).sink.None?
  {
    if |chunks| > 0 {
      DeliverBuffers(r, DropLast(chunks));
      assert DropLast(chunks) + [Last(chunks)] == chunks;
    }
  }

  /** With the content length equal to the buffered total, the assembled
      buffer is exactly the concatenation, with no zero padding. */
  lemma AssembleExact(body: seq<Bytes>)
    ensures Assemble(body, TotalLength(body)) == Concat(body)
  {
  }

  /** A last chunk that is the whole non-empty body resolves a pending
      future with exactly that chunk. */
  lemma WholeBodyInOneChunk(r: Response, d: Bytes)
    requires r.sink.None? && r.body == [] && r.contentLength == 0 && r.future.Pending? && |d| > 0
    ensures AddChunk(r, d, true).future == Done(Some(d))
  {
    assert DropLast([d]) == [];
    assert Concat([d]) == d;
    assert Zeros(0) == [];
    assert Assemble([d], |d|) == d;
  }

  /** A last chunk on a pending Response without a sink, whose length so far
      is its buffered total, resolves it with the concatenation of all its
      chunks, or with null when they are all empty. */
  lemma LastChunkResolves(r: Response, last: Bytes)
    requires Valid(r) && r.sink.None? && r.future.Pending? && r.contentLength == TotalLength(r.body)
    ensures var r' := AddChunk(r, last, true);
            var all := r.body + [last];
            && r'.body == all && r'.contentLength == TotalLength(all)
            && (TotalLength(all) > 0 ==> r'.future == Done(Some(Concat(all))))
            && (TotalLength(all) == 0 ==> r'.future == Done(None))
            && r'.events == r.events + SuccessCalls(r.callbacks, r.headers, r'.future.result)
            && r'.callbacks == DropWatches(r.callbacks)
  {
  }

  /** The body round trip: chunks buffered into a fresh Response and closed by
      a last chunk resolve the future with all of them concatenated in order,
      whose length is the content length; a body of total length zero
      resolves it with null. */
  lemma BufferedBodyIsConcatenation(chunks: seq<Bytes>, last: Bytes)
    ensures var r := AddChunk(Deliver(NewResponse(), chunks), last, true);
            var all := chunks + [last];
            && r.contentLength == TotalLength(all)
            && r.body == all
            && (TotalLength(all) > 0 ==> r.future == Done(Some(Concat(all))))
            && (TotalLength(all) == 0 ==> r.future == Done(None))
  {
    var r0 := Deliver(NewResponse(), chunks);
    DeliverBuffers(NewResponse(), chunks);
    assert [] + chunks == chunks;
    LastChunkResolves(r0, last);
  }

  /** A flush delivers exactly the buffered bytes, in order, on top of what
      the sink had already received. */
  lemma {:induction false} FlushDeliversBody(es: seq<Event>, s: SinkId, body: seq<Bytes>)
    ensures SinkBytes(es + Flush(s, body), s) == SinkBytes(es, s) + Concat(body)
  {
    if |body| > 0 {
      var prefix := es + Flush(s, DropLast(body));
      FlushDeliversBody(es, s, DropLast(body));
      assert es + Flush(s, body) == prefix + [SinkWrite(s, Last(body))];
      assert DropLast(prefix + [SinkWrite(s, Last(body))]) == prefix;
      calc {
        SinkBytes(es + Flush(s, body), s);
        SinkBytes(prefix, s) + Last(body);
        SinkBytes(es, s) + Concat(DropLast(body)) + Last(body);
        SinkBytes(es, s) + Concat(body);
      }
    } else {
      assert es + Flush(s, body) == es;
    }
  }

  /** Attaching a sink after some chunks were buffered hands the sink those
      chunks, in order and once, before the next live chunk; the future stays
      pending even when that chunk is the last one. */
  lemma AttachThenLastChunk(r: Response, s: SinkId, d: Bytes)
    requires Valid(r) && r.sink.None? && r.future.Pending?
    requires SinkBytes(r.events, s) == []
    ensures var r' := AddChunk(SetSink(r, Some(s)), d, true);
            && SinkBytes(r'.events, s) == Concat(r.body) + d
            && r'.future.Pending?
            && r'.body == r.body
            && r'.contentLength == r.contentLength + |d|
  {
    var r1 := SetSink(r, Some(s));
    FlushDeliversBody(r.events, s, r.body);
    assert SinkBytes(r1.events, s) == Concat(r.body);
    var r2 := AddChunk(r1, d, true);
    assert DropLast(r2.events) == r1.events;
  }

  /** Each callback queued on a pending future is called exactly once by the
      success hook, at its place in the queue; afterwards a watch is gone and
      a one-shot callback is still registered. */
  lemma ResolveCallsEachOnceAndDropsWatches(r: Response, v: Option<Bytes>, i: int)
    requires r.future.Pending? && 0 <= i < |r.callbacks|
    ensures var r' := Resolve(r, v);
            && r'.events[|r.events| + i] == CalledSuccess(r.callbacks[i], r.headers, v)
            && (r.callbacks[i] in r'.callbacks <==> !r.callbacks[i].isWatch)
            && Resolve(r', v) == r'
  {
  }
}

=== FILE: upload.dfy ===
/** Upload: a Request that also names a file to upload. Each of its three
    constructors builds the Request and then checks the method, throwing
    IllegalArgumentException("Uploads have to use PUT or POST") when the
    check fires. As written the check is `method != PUT || method != POST`,
    which holds for every method, so every construction throws. The
    corrected check, `method != PUT && method != POST`, is modelled beside
    it. */
module Uploads {
  import opened HttpTypes
  import opened Requests

  /** The file an upload names. */
  type FileRef = string

  datatype Upload = Upload(request: Request, file: FileRef)

  const UploadMethodMessage: string := "Uploads have to use PUT or POST"

  /** The method check as written. */
  predicate RejectsAsWritten(m: Method)
  {
    m != PUT || m != POST
  }

  /** The method check as evidently intended: anything but PUT or POST. */
  predicate Rejects(m: Method)
  {
    m != PUT && m != POST
  }

  /** The written check holds of every method, PUT and POST included. */
  lemma WrittenCheckRejectsEveryMethod(m: Method)
    ensures RejectsAsWritten(m)
    ensures RejectsAsWritten(PUT) && RejectsAsWritten(POST)
  {
  }

  function Checked(r: Request, file: FileRef, rejects: bool): Result<Upload, JavaException>
  {
    if rejects then Err(IllegalArgument(UploadMethodMessage)) else Ok(Upload(r, file))
  }

  /** Upload(url, method, file) as written: always throws. */
  function NewUploadAsWritten(url: Url, m: Method, file: FileRef): (u: Result<Upload, JavaException>)
    ensures u == Err(IllegalArgument(UploadMethodMessage))
  {
    Checked(NewRequest(url, m), file, RejectsAsWritten(m))
  }

  /** Upload(url, method, headers, file) as written: always throws. */
  function NewUploadWithHeadersAsWritten(url: Url, m: Method, headers: Option<Headers>, file: FileRef): (u: Result<Upload, JavaException>)
    ensures u == Err(IllegalArgument(UploadMethodMessage))
  {
    Checked(NewRequestWithHeaders(url, m, headers), file, RejectsAsWritten(m))
  }

  /** Upload(url, method, headers, body, contentType, file) as written:
      always throws. */
  function NewUploadWithBodyAsWritten(url: Url, m: Method, headers: Option<Headers>, body: Bytes,
                                      contentType: Option<string>, file: FileRef): (u: Result<Upload, JavaException>)
    ensures u == Err(IllegalArgument(UploadMethodMessage))
  {
    Checked(NewRequestWithBody(url, m, headers, body, contentType), file, RejectsAsWritten(m))
  }

  /** A PUT upload is refused although the message asks for PUT, and so is a
      POST upload with headers. */
  lemma PutAndPostUploadsRefused(url: Url, headers: Option<Headers>, file: FileRef)
    ensures NewUploadAsWritten(url, PUT, file).Err?
    ensures NewUploadWithHeadersAsWritten(url, POST, headers, file).Err?
  {
  }

  /** Upload(url, method, file) with the intended check. */
  function NewUpload(url: Url, m: Method, file: FileRef): (u: Result<Upload, JavaException>)
    ensures u.Ok? <==> m == PUT || m == POST
    ensures u.Err? ==> u.error == IllegalArgument(UploadMethodMessage)
    ensures u.Ok? ==> u.value.request == NewRequest(url, m) && u.value.file == file
  {
    Checked(NewRequest(url, m), file, Rejects(m))
  }

  /** Upload(url, method, headers, file) with the intended check. */
  function NewUploadWithHeaders(url: Url, m: Method, headers: Option<Headers>, file: FileRef): (u: Result<Upload, JavaException>)
    ensures u.Ok? <==> m == PUT || m == POST
    ensures u.Err? ==> u.error == IllegalArgument(UploadMethodMessage)
    ensures u.Ok? ==> u.value.request == NewRequestWithHeaders(url, m, headers) && u.value.file == file
  {
    Checked(NewRequestWithHeaders(url, m, headers), file, Rejects(m))
  }

  /** Upload(url, method, headers, body, contentType, file) with the intended
      check. */
  function NewUploadWithBody(url: Url, m: Method, headers: Option<Headers>, body: Bytes,
                             contentType: Option<string>, file: FileRef): (u: Result<Upload, JavaException>)
    ensures u.Ok? <==> m == PUT || m == POST
    ensures u.Err? ==> u.error == IllegalArgument(UploadMethodMessage)
    ensures u.Ok? ==> u.value.request.body == Some(body) && u.value.file == file
    ensures u.Ok? ==> u.value.request == NewRequestWithBody(url, m, headers, body, contentType)
  {
    Checked(NewRequestWithBody(url, m, headers, body, contentType), file, Rejects(m))
  }

  /** With the intended check the two forms agree exactly on the methods the
      message names, and differ on PUT and POST. */
  lemma IntendedCheckDiffersOnlyOnPutAndPost(m: Method)
    ensures Rejects(m) == RejectsAsWritten(m) <==> m != PUT && m != POST
  {
  }
}
